=== FILE: README.md ===
# Timesheet workflow and time entries — a Dafny model

This project models the core of a time-tracking service. Employees log
time entries against project tasks. Each user has one timesheet per week.
A timesheet moves from DRAFT to SUBMITTED to APPROVED or REJECTED. When it
is submitted, its hours are totalled onto it, and the owner's manager gets
an approval request. An entry that belongs to a timesheet that has left
DRAFT is locked against edits. A weekly summary reports a user's hours:
totals, billable share, and groupings by day and by project.

The model is a set of pure functions over an immutable `Store`. The store
holds:

- users (role and manager), projects and tasks, as maps;
- time entries, as a sequence with explicit ids and an id counter;
- timesheets and approval records, as append-only sequences where the
  position is the id.

Every HTTP handler becomes a function of a store and an explicit caller
(user id and role). The result type depends on what the handler does:

- A handler that changes the store, can fail and has a response value
  returns `Result<(Store, T), Error>`. A success carries the new store and
  the response value. A failure carries an error and no store, so a failed
  request changes nothing.
- `DeleteTimeEntry` answers only a fixed message, so it has no response
  value and returns `Result<Store, Error>`.
- `CreateOrGetTimesheet` cannot fail in the model. It returns the store
  and the timesheet's id.
- A read-only handler returns its value. `GetTimeEntries` and
  `GetPendingApprovals` return a sequence. `GetTimesheetById` and
  `GetWeeklySummary` can refuse a request, so they return a `Result`
  without a store.

Clock readings are a `now` parameter. Dates are whole day numbers. Hours
are exact `real`s.

Modules, in dependency order:

- `Results` — `Option` and `Result`.
- `Domain` — the entities, roles, statuses, errors, and the JavaScript
  string truthiness test (`Present`: a string that is given and
  non-empty). The numeric test `RateGiven` (a rate that is given and
  non-zero) lives in `TimeEntries`, its only user.
- `Hours` — order-preserving selection of entries, hour sums, and billable
  hours.
- `Grouping` — grouping by key in first-seen order. This is how a
  JavaScript object accumulates keys in a `forEach`.
- `Summary` — the weekly summary of `getWeeklySummary`.
- `TimeEntries` — entry creation, the query filter, and the
  update/delete guards.
- `Timesheets` — the timesheet handlers. The route role gates
  (MANAGER or SUPER_ADMIN for pending approvals, approve and reject)
  become preconditions.
- `Invariants` — store invariants that every handler preserves, and the
  properties that link the workflow to the edit lock. One invariant is the
  foreign key of an entry's timesheet: an entry names only a timesheet
  that exists. In a valid store the edit lock's "timesheet missing" case
  therefore cannot arise, and the lock means exactly "attached to a
  timesheet that has left DRAFT".
- `Requests` — any sequence of handler requests: every reachable store
  keeps the invariants, and a timesheet submitted without a manager stays
  SUBMITTED forever.
- `WeekAttachment` — how entries come to belong to a timesheet (see
  Findings).

Where the code and the evident design disagree, the model follows the
code:

- Submit, update and delete refuse only an EMPLOYEE who is not the owner.
  Any other role may act on anyone's timesheet or entry, FINANCE_ADMIN
  included. Reading a single timesheet is narrower: only the owner, a
  MANAGER or a SUPER_ADMIN may read it.
- Entries are expected to join their week's timesheet when it is created
  or fetched. The code never attaches them (Findings).
- The 50% billable share of a submitted week is a figure of the weekly
  summary (`Summary.Percentage`). The timesheet itself stores only the
  three hour totals.

## Model

| member | source | states |
|---|---|---|
| Domain.ManagerOf | src/controllers/timesheet.controller.ts:182-191 | a user has a manager to address exactly when the user exists and its manager id is given and non-empty |
| Hours.BillableWithinTotal | src/controllers/timeEntry.controller.ts:323-327 | with no negative entry, billable hours lie between zero and total hours |
| Grouping.GroupBy | src/controllers/timeEntry.controller.ts:329-348 | grouping yields one group per distinct key, with exactly the keys of the input and no more groups than items |
| Grouping.GroupHours | src/controllers/timeEntry.controller.ts:331-334 | each group holds the sum of the hours of the items with its key |
| Grouping.GroupLabels | src/controllers/timeEntry.controller.ts:340-346 | each group's display data is that of the first item seen with its key |
| Grouping.GroupOrder | src/controllers/timeEntry.controller.ts:329-348 | groups come out in first-seen order: a group comes before every group whose key first occurs later in the input, as keys are inserted into a JavaScript object |
| Grouping.GroupTotal | src/controllers/timeEntry.controller.ts:329-348 | the groups together hold exactly the hours of all items |
| Summary.Percentage | src/controllers/timeEntry.controller.ts:355 | the billable share is zero when there are no hours; otherwise share × total = billable × 100, and it lies in 0..100 when billable does not exceed total |
| Summary.Summarize | src/controllers/timeEntry.controller.ts:322-356 | total = billable + non-billable exactly; no hours means a 0% share; both groupings have distinct keys |
| Summary.ByDayCorrect | src/controllers/timeEntry.controller.ts:329-334 | the day groups are exactly the dates that occur, each holds that day's hours, and together they hold the total |
| Summary.ByProjectCorrect | src/controllers/timeEntry.controller.ts:336-348 | the project groups are exactly the projects that occur, each holds that project's hours, and together they hold the total |
| Summary.ByProjectFirstSeen | src/controllers/timeEntry.controller.ts:340-346 | a project group's name and client come from the project of the first entry seen for it |
| Summary.SummarizeEmpty | src/controllers/timeEntry.controller.ts:322-356 | no entries give zero totals, a 0% share and empty groupings |
| Summary.PercentageInRange | src/controllers/timeEntry.controller.ts:324-355 | with no negative entry, non-billable hours are non-negative and the share lies in 0..100 |
| Summary.AllBillablePercentage | src/controllers/timeEntry.controller.ts:355 | all-billable work with positive hours is 100% billable with zero non-billable hours |
| Summary.GetWeeklySummary | src/controllers/timeEntry.controller.ts:285-290 | the request fails with a validation error exactly when a bound is missing; otherwise total = billable + non-billable |
| Summary.WeeklySummaryDays | src/controllers/timeEntry.controller.ts:291-334 | the day groups are exactly the dates of the caller's own entries inside the inclusive window, whatever the caller's role, each holding the hours of those entries on that date |
| Summary.WeeklySummaryProjects | src/controllers/timeEntry.controller.ts:291-348 | the project groups are exactly the projects of the caller's own entries inside the inclusive window, each holding the hours of those entries on that project |
| Summary.ExampleWeekTotals | src/controllers/timeEntry.controller.ts:322-356 | 8 billable and 8 non-billable hours total 16, 8 and 8, a 50% share |
| Summary.ExampleWeekByDay | src/controllers/timeEntry.controller.ts:329-334 | the same week gives two day groups of 8 hours, in first-seen order |
| Summary.ExampleWeekByProject | src/controllers/timeEntry.controller.ts:336-348 | the same week gives one project group of 16 hours |
| TimeEntries.CreateTimeEntry | src/controllers/timeEntry.controller.ts:12-36 | creation fails exactly when the task is missing or belongs to another project; a new entry is the caller's, appended with a fresh id, outside any timesheet, billable as sent or as its task, and rated as sent when the sent rate is non-zero, otherwise as its task |
| TimeEntries.BuildFilter | src/controllers/timeEntry.controller.ts:83-101 | an EMPLOYEE is pinned to their own entries; other roles filter by a given user; the date range applies only when both bounds are given; the project applies when given |
| TimeEntries.GetTimeEntries | src/controllers/timeEntry.controller.ts:83-157 | an entry is listed exactly when it is in the store and matches the filter; an EMPLOYEE sees only their own entries; with both bounds, every listed date lies in the range |
| TimeEntries.EmployeeQueryIgnoresUserId | src/controllers/timeEntry.controller.ts:86-90 | an EMPLOYEE's listing does not depend on the user id the query names |
| TimeEntries.ApplyPatch | src/controllers/timeEntry.controller.ts:196-203 | an update replaces exactly the fields sent and keeps the id, owner, project, task, date and timesheet |
| TimeEntries.FindEntry | src/controllers/timeEntry.controller.ts:174 | lookup by id finds a position holding that id, or reports that no entry has it |
| TimeEntries.CheckMutable | src/controllers/timeEntry.controller.ts:174-195 | in order: NotFound for an unknown id, Forbidden for an EMPLOYEE who is not the owner, LockedTimesheet when the entry's existing timesheet has left DRAFT, otherwise the entry's position |
| TimeEntries.UpdateTimeEntry | src/controllers/timeEntry.controller.ts:174-206 | an update fails exactly as the guards do; on success only that entry changes, to the patched entry |
| TimeEntries.DeleteTimeEntry | src/controllers/timeEntry.controller.ts:246-269 | a delete fails exactly as the guards do; on success exactly that entry is removed and the rest keep their order |
| Timesheets.FindSheet | src/controllers/timesheet.controller.ts:20-26 | lookup by user and week start finds that user's timesheet for the week, or reports that there is none |
| Timesheets.CreateOrGetTimesheet | src/controllers/timesheet.controller.ts:15-114 | an existing timesheet for the caller's week is returned with the store unchanged; otherwise one is appended, ending six days after its start, DRAFT, with zero totals and no submission time |
| Timesheets.CreateOrGetIdempotent | src/controllers/timesheet.controller.ts:20-91 | asking twice for the same week returns the same timesheet and the second request changes nothing |
| Timesheets.SubmitTimesheet | src/controllers/timesheet.controller.ts:130-191 | NotFound, then Forbidden for an EMPLOYEE who is not the owner, then InvalidTransition unless DRAFT; success marks it SUBMITTED at `now` with the totals of its attached entries, and appends one PENDING approval addressed to the owner's manager exactly when there is one |
| Timesheets.ApproveTimesheet | src/controllers/timesheet.controller.ts:210-243 | behind the MANAGER/SUPER_ADMIN gate, NotFound unless the caller has a PENDING approval for the timesheet; success marks that approval APPROVED at `now` and the timesheet APPROVED, and nothing else changes |
| Timesheets.RejectTimesheet | src/controllers/timesheet.controller.ts:259-296 | behind the same gate, a missing or empty reason is a validation error before any lookup; then as approve, ending REJECTED with the exact reason and time recorded |
| Timesheets.PendingOf | src/controllers/timesheet.controller.ts:315-371 | the listing holds exactly the PENDING approvals addressed to the given approver |
| Timesheets.GetPendingApprovals | src/controllers/timesheet.controller.ts:315-371 | behind the MANAGER/SUPER_ADMIN gate, the caller sees exactly the PENDING approvals addressed to them |
| Timesheets.GetTimesheetById | src/controllers/timesheet.controller.ts:389-476 | NotFound for an unknown id; otherwise the timesheet is returned exactly when the caller owns it or is a MANAGER or SUPER_ADMIN, and Forbidden otherwise |
| Invariants.DraftHasNoApproval | src/controllers/timesheet.controller.ts:154-191 | in a valid store, a DRAFT timesheet has no approval record |
| Invariants.CreateOrGetPreserves | src/controllers/timesheet.controller.ts:20-91 | get-or-create keeps one timesheet per user and week, the other invariants and the totals of submitted timesheets |
| Invariants.SubmitPreserves | src/controllers/timesheet.controller.ts:154-191 | submission keeps the invariants: at most one approval per timesheet, approval status mirrored by the timesheet, and totals equal to the attached hours |
| Invariants.ApprovePreserves | src/controllers/timesheet.controller.ts:212-243 | approval keeps the invariants and moves the timesheet from SUBMITTED to APPROVED only |
| Invariants.RejectPreserves | src/controllers/timesheet.controller.ts:267-296 | rejection keeps the invariants and moves the timesheet from SUBMITTED to REJECTED only |
| Invariants.CreateEntryPreserves | src/controllers/timeEntry.controller.ts:15-36 | creating an entry keeps entry ids fresh and distinct and leaves every submitted total correct |
| Invariants.UpdateEntryPreserves | src/controllers/timeEntry.controller.ts:186-206 | because of the edit lock, an update leaves every submitted timesheet's totals correct |
| Invariants.DeleteEntryPreserves | src/controllers/timeEntry.controller.ts:258-269 | because of the edit lock, a delete leaves every submitted timesheet's totals correct |
| Invariants.SubmitLocksEntries | src/controllers/timeEntry.controller.ts:186-195 | after submission, every entry attached to the timesheet is refused for update and delete with LockedTimesheet |
| Invariants.NoPendingAfterResolution | src/controllers/timesheet.controller.ts:212-226 | once a timesheet's approval is resolved, no approver has a PENDING approval for it |
| Invariants.ApproveTwiceFails | src/controllers/timesheet.controller.ts:212-226 | approving twice, or rejecting after approval, answers NotFound |
| Invariants.RejectTwiceFails | src/controllers/timesheet.controller.ts:267-279 | rejecting twice, or approving after rejection, answers NotFound |
| Invariants.LockedExactlyWhenSubmitted | src/controllers/timeEntry.controller.ts:186-195 | in a valid store an entry's timesheet exists, so the edit lock holds exactly when the entry is attached to a timesheet that has left DRAFT |
| Requests.StepPreserves | src/routes/timesheet.routes.ts:16-21 | any one request to either controller, a refused one included, keeps the store invariants and moves each timesheet along its lifecycle |
| Requests.RunPreserves | src/routes/timesheet.routes.ts:16-21 | every store reached from a valid store by any sequence of requests is valid, with correct submitted totals |
| Requests.StuckRefusesResolution | src/controllers/timesheet.controller.ts:212-226 | a SUBMITTED timesheet that no approval names cannot be approved or rejected: approve answers NotFound, reject fails |
| Requests.SubmitKeepsStuck | src/controllers/timesheet.controller.ts:154-191 | a successful submission is of a DRAFT timesheet, so a stuck timesheet stays SUBMITTED with no approval |
| Requests.ApproveKeepsStuck | src/controllers/timesheet.controller.ts:212-243 | a successful approval acts on a timesheet some pending approval names, so a stuck timesheet stays stuck |
| Requests.RejectKeepsStuck | src/controllers/timesheet.controller.ts:267-296 | a successful rejection acts on a timesheet some pending approval names, so a stuck timesheet stays stuck |
| Requests.StepKeepsStuck | src/controllers/timesheet.controller.ts:154-296 | no request to either controller gives such a timesheet an approval or moves it out of SUBMITTED |
| Requests.StuckForever | src/controllers/timesheet.controller.ts:154-296 | such a timesheet stays SUBMITTED with no approval after any sequence of requests |
| Requests.SubmissionWithoutManagerIsStuck | src/controllers/timesheet.controller.ts:182-191 | a submission by an owner without a manager creates no approval; after any later requests the timesheet is still SUBMITTED and every manager's approve answers NotFound |
| Requests.StepAttachesNothing | src/controllers/timeEntry.controller.ts:27-35 | as written, no request of either controller sets an entry's timesheet: entry creation leaves it empty, update keeps it, and get-or-create touches no entry |
| Requests.RequestsAttachNothing | src/controllers/timesheet.controller.ts:160-166 | as written, from a store with no attached entry, no sequence of requests attaches one, so every later submission snapshots zero total and zero billable hours |
| WeekAttachment.AttachWeek | src/controllers/timesheet.controller.ts:81-91 | attaching points exactly the owner's loose entries dated in the week at the timesheet and keeps every other entry |
| WeekAttachment.CreateOrGetAttaching | src/controllers/timesheet.controller.ts:20-91 | the corrected get-or-create returns the same timesheet as the as-written `Timesheets.CreateOrGetTimesheet` and, when it is DRAFT, attaches the caller's loose entries of its week |
| WeekAttachment.AttachAddsLooseTotal | src/controllers/timesheet.controller.ts:160-163 | after attaching, the timesheet's attached hours are those it had plus those of the owner's loose entries of the week |
| WeekAttachment.AttachAddsLooseBillable | src/controllers/timesheet.controller.ts:164-166 | after attaching, the timesheet's attached billable hours are those it had plus those of the loose entries |
| WeekAttachment.AttachKeepsOthers | src/controllers/timesheet.controller.ts:160-166 | attaching to one timesheet leaves the entries of every other timesheet unchanged |
| WeekAttachment.AttachingCountsLooseEntries | src/controllers/timesheet.controller.ts:160-178 | after the corrected get-or-create, submission succeeds and snapshots the week's loose hours in total and billable hours |
| WeekAttachment.AttachKeepsSnapshots | src/controllers/timeEntry.controller.ts:186-195 | attaching entries to a DRAFT timesheet leaves the totals of every submitted timesheet correct |
| WeekAttachment.AttachingPreserves | src/controllers/timesheet.controller.ts:20-91 | the corrected get-or-create keeps every store invariant and the totals of submitted timesheets |
| WeekAttachment.LogTwoDays | src/controllers/timeEntry.controller.ts:15-36 | logging two days in the example store creates entries 0 and 1, owned by the caller and billable as their tasks, outside any timesheet |
| WeekAttachment.FirstWeekRequest | src/controllers/timesheet.controller.ts:81-91 | the first request for a week in a store without timesheets creates timesheet 0 for days 100 to 106, DRAFT, with zero totals |
| WeekAttachment.SubmitIgnoresLoggedWork | src/controllers/timesheet.controller.ts:160-166 | as written: 8 hours logged in the week, then get-or-create and submit, yields a submitted timesheet of 0 hours |
| WeekAttachment.SubmitCountsLoggedWork | src/controllers/timesheet.controller.ts:160-166 | corrected: the same steps yield a submitted timesheet of 8 hours |
| WeekAttachment.TwoDayWeekAttached | src/controllers/timesheet.controller.ts:81-91 | after logging 8 billable and 8 non-billable hours, the corrected get-or-create creates DRAFT timesheet 0 holding 16 hours, 8 of them billable |
| WeekAttachment.TwoDayWeekSubmitted | src/controllers/timesheet.controller.ts:160-191 | the attached two-day week submits as 16 hours, 8 billable and 8 non-billable, with one PENDING approval addressed to the manager |
| WeekAttachment.PendingWeekApproved | src/controllers/timesheet.controller.ts:212-243 | the addressed manager's approval of the one pending request leaves the approval and the timesheet APPROVED at the approval time |
| WeekAttachment.TwoDayWeekScenario | src/controllers/timesheet.controller.ts:160-243 | that week submits as 16 hours, 8 billable and 8 non-billable (50%), with one PENDING approval for the manager; the manager's approval leaves both records APPROVED at the approval time |
| WeekAttachment.TwoDayWeekWithoutManager | src/controllers/timesheet.controller.ts:182-191 | the same week for an owner without a manager submits 16 hours and creates no approval |

## Left out

- Authentication, the 401 answer for an unauthenticated request, JWTs and
  the server setup. The caller is a parameter that is always present.
- The project and authentication controllers, their routes, and the seed
  data. They are outside the modelled workflow.
- The joined display data of responses, such as user names, emails and
  task names. The exception is the project name and client name that a
  project group of the weekly summary shows.
- Response ordering by creation time or date. `PendingOf` lists newest
  first by store position; entry listings keep store order.
- Timezones and date-string parsing. Dates are whole day numbers, and a
  week ends six days after it starts.
- Floating-point arithmetic. Hours are exact reals, so "total = billable +
  non-billable" is exact in the model but only approximate in the service.
- Concurrency. Each handler's separate database writes are modelled as one
  atomic step, and races between requests are not modelled.
- Database failures, other than a pending approval whose timesheet is
  missing (`Internal`). All other failures surface as the generic 500
  answer.
- `createdAt` and `updatedAt` timestamps.
- TimeEntries.ApplyPatch: an explicit `null` for a nullable field, which
  would clear it, is not modelled. A field is either sent with a value or
  not sent.
- TimeEntries.CreateTimeEntry: the service does not check that hours are
  positive, the date is valid, or the caller may use the project, and
  neither does the model. Negative or zero hours are accepted. An explicit
  `null` for `isBillable` is not expressible either. The service hands
  that `null` to the store instead of falling back to the task's default,
  because the default applies only when the field is absent. The model's
  `isBillable` is either sent with a value or not sent, so it always falls
  back to the task's default.
- Invariants.SubmitLocksEntries: the lock covers only entries attached to
  the timesheet. As written, nothing attaches entries (Findings), so the
  lock never engages for entries created through the handlers.

## Findings

| source | as written | input that shows it | evidently intended | confidence | as-written member | corrected member |
|---|---|---|---|---|---|---|
| src/controllers/timesheet.controller.ts:81-91 | no handler sets an entry's timesheet: entry creation leaves it empty and get-or-create attaches nothing, so submission sums an empty list | employee `u` logs 8 hours on day 100, asks for the week starting day 100, and submits: the timesheet is SUBMITTED with 0 hours | creating or fetching a DRAFT timesheet attaches the owner's unattached entries dated in its week, so submission totals the week's work and the edit lock covers it | medium, not executed | WeekAttachment.SubmitIgnoresLoggedWork | WeekAttachment.CreateOrGetAttaching |

=== FILE: domain.dfy ===
/**
 * Records of the timesheet backend, as the two controllers see them once the
 * relational store is replaced by in-memory collections.
 *
 * - Identifiers of users, projects and tasks are strings.
 * - Timesheets and approvals are never deleted by the modelled handlers, so
 *   each is identified by its position in an append-only sequence.
 * - Time entries are deleted, so each carries its own `id`, drawn from a
 *   counter kept in the store.
 * - Dates are day numbers, hours are exact reals, and timestamps are plain
 *   integers supplied by the caller.
 */
module Domain {
  import opened Results

  type Id = string

  /** A calendar date as a day number, so "+6 days" is `+ 6`. */
  type Day = int

  /** A point in time; the handlers receive the current time as a parameter. */
  type Timestamp = int

  datatype Role = Employee | Manager | SuperAdmin | FinanceAdmin

  /** The authenticated caller: the user id and role taken from the token. */
  datatype Caller = Caller(userId: Id, role: Role)

  datatype SheetStatus = Draft | Submitted | Approved | Rejected

  datatype ApprovalStatus = Pending | Approved | Rejected

  /** The errors a handler answers with; `Internal` stands for a failed store write. */
  datatype Error = ValidationError | NotFound | Forbidden | InvalidTransition | LockedTimesheet | Internal

  /**
   * A stored user. The modelled handlers never read the stored `role`: every
   * role test uses the caller's role from the token.
   */
  datatype User = User(role: Role, managerId: Option<Id>)

  datatype Project = Project(name: string, clientName: string)

  datatype Task = Task(projectId: Id, isBillable: bool, hourlyRate: Option<real>)

  datatype TimeEntry = TimeEntry(
    id: nat,
    userId: Id,
    projectId: Id,
    taskId: Id,
    date: Day,
    hours: real,
    isBillable: bool,
    hourlyRate: Option<real>,
    notes: Option<string>,
    timesheetId: Option<nat>)

  datatype Timesheet = Timesheet(
    userId: Id,
    weekStart: Day,
    weekEnd: Day,
    status: SheetStatus,
    totalHours: real,
    billableHours: real,
    nonBillableHours: real,
    submittedAt: Option<Timestamp>)

  datatype Approval = Approval(
    timesheetId: nat,
    approverId: Id,
    submitterId: Id,
    status: ApprovalStatus,
    rejectionReason: Option<string>,
    approvedAt: Option<Timestamp>,
    rejectedAt: Option<Timestamp>)

  /** The whole persistent state the two controllers read and write. */
  datatype Store = Store(
    users: map<Id, User>,
    projects: map<Id, Project>,
    tasks: map<Id, Task>,
    entries: seq<TimeEntry>,
    nextEntryId: nat,
    timesheets: seq<Timesheet>,
    approvals: seq<Approval>)

  /** The roles the approval routes admit, and that may read any timesheet. */
  predicate IsManagerRole(role: Role) {
    role == Manager || role == SuperAdmin
  }

  /** A JavaScript string test: absent and empty are both falsy. */
  predicate Present(s: Option<string>) {
    s.Some? && s.value != ""
  }

  /** The owner's manager, if the owner has one (an empty id counts as none). */
  function ManagerOf(users: map<Id, User>, userId: Id): (r: Option<Id>)
    ensures r.Some? <==> userId in users && Present(users[userId].managerId)
    ensures r.Some? ==> r.value == users[userId].managerId.value && r.value != ""
  {
    if userId in users && Present(users[userId].managerId) then users[userId].managerId else None
  }
}

=== FILE: grouping.dfy ===
/**
 * Grouping of hours by a key, as the weekly summary builds `byDay` and
 * `byProject`: a JavaScript object filled by one `forEach`, read back in
 * insertion order. A group is created by the first entry with its key, which
 * also supplies its label; later entries with that key only add their hours.
 */
module Grouping {
  import opened Results

  /** One row of hours: an input item, or a group of the output. */
  datatype Tally<K, L> = Tally(key: K, info: L, hours: real)

  /** The set of keys that occur in `ts`. */
  function KeysOf<K, L>(ts: seq<Tally<K, L>>): set<K> {
    set i | 0 <= i < |ts| :: ts[i].key
  }

  /** No key occurs twice. */
  predicate DistinctKeys<K(==), L>(ts: seq<Tally<K, L>>) {
    forall i, j :: 0 <= i < j < |ts| ==> ts[i].key != ts[j].key
  }

  /** Sum of the hours of all rows. */
  function SumHours<K, L>(ts: seq<Tally<K, L>>): real {
    if |ts| == 0 then 0.0 else SumHours(ts[..|ts| - 1]) + ts[|ts| - 1].hours
  }

  /** Sum of the hours of the rows with key `k`. */
  function HoursOf<K(==), L>(ts: seq<Tally<K, L>>, k: K): real {
    if |ts| == 0 then 0.0
    else HoursOf(ts[..|ts| - 1], k) + (if ts[|ts| - 1].key == k then ts[|ts| - 1].hours else 0.0)
  }

  /** The position of the first row with key `k`, if there is one. */
  function FirstIndex<K(==), L>(ts: seq<Tally<K, L>>, k: K): (r: Option<nat>)
    ensures r.Some? <==> k in KeysOf(ts)
    ensures r.Some? ==> r.value < |ts| && ts[r.value].key == k
    ensures r.Some? ==> forall i :: 0 <= i < r.value ==> ts[i].key != k
  {
    if |ts| == 0 then None
    else
      var init := ts[..|ts| - 1];
      assert KeysOf(ts) == KeysOf(init) + {ts[|ts| - 1].key} by {
        assert forall i :: 0 <= i < |init| ==> init[i] == ts[i];
      }
      match FirstIndex(init, k)
      case Some(i) => Some(i)
      case None => if ts[|ts| - 1].key == k then Some(|ts| - 1) else None
  }

  /** Adds one row: into the existing group with its key, or as a new group at the end. */
  function Add<K(==), L>(gs: seq<Tally<K, L>>, t: Tally<K, L>): (r: seq<Tally<K, L>>)
    ensures KeysOf(r) == KeysOf(gs) + {t.key}
    ensures DistinctKeys(gs) ==> DistinctKeys(r)
    ensures |gs| <= |r| <= |gs| + 1
  {
    match FirstIndex(gs, t.key)
    case Some(j) =>
      var r := gs[j := gs[j].(hours := gs[j].hours + t.hours)];
      assert KeysOf(r) == KeysOf(gs) by {
        assert forall i :: 0 <= i < |r| ==> r[i].key == gs[i].key;
      }
      r
    case None =>
      var r := gs + [t];
      assert KeysOf(r) == KeysOf(gs) + {t.key} by {
        assert forall i :: 0 <= i < |gs| ==> r[i] == gs[i];
        assert r[|gs|] == t;
      }
      r
  }

  /** Folds every row into its group, in order. */
  function GroupBy<K(==), L>(items: seq<Tally<K, L>>): (r: seq<Tally<K, L>>)
    ensures DistinctKeys(r)
    ensures KeysOf(r) == KeysOf(items)
    ensures |r| <= |items|
  {
    if |items| == 0 then []
    else
      var init := items[..|items| - 1];
      assert KeysOf(items) == KeysOf(init) + {items[|items| - 1].key} by {
        assert forall i :: 0 <= i < |init| ==> init[i] == items[i];
      }
      Add(GroupBy(init), items[|items| - 1])
  }

  /** A key that never occurs contributes no hours. */
  lemma {:induction false} HoursOfAbsent<K, L>(ts: seq<Tally<K, L>>, k: K)
    requires k !in KeysOf(ts)
    ensures HoursOf(ts, k) == 0.0
    decreases |ts|
  {
    if |ts| > 0 {
      var init := ts[..|ts| - 1];
      assert KeysOf(init) <= KeysOf(ts) by {
        assert forall i :: 0 <= i < |init| ==> init[i] == ts[i];
      }
      HoursOfAbsent(init, k);
      assert ts[|ts| - 1].key in KeysOf(ts);
    }
  }

  /** Changing one row's hours changes the sum by the difference. */
  lemma {:induction false} SumHoursUpdate<K, L>(ts: seq<Tally<K, L>>, j: nat, h: real)
    requires j < |ts|
    ensures SumHours(ts[j := ts[j].(hours := h)]) == SumHours(ts) - ts[j].hours + h
    decreases |ts|
  {
    var ts' := ts[j := ts[j].(hours := h)];
    if j == |ts| - 1 {
      assert ts'[..|ts'| - 1] == ts[..|ts| - 1];
    } else {
      assert ts'[..|ts'| - 1] == ts[..|ts| - 1][j := ts[j].(hours := h)];
      SumHoursUpdate(ts[..|ts| - 1], j, h);
    }
  }

  /** Each group holds exactly the hours of the rows with its key. */
  lemma {:induction false} GroupHours<K, L>(items: seq<Tally<K, L>>)
    ensures forall i :: 0 <= i < |GroupBy(items)| ==> GroupBy(items)[i].hours == HoursOf(items, GroupBy(items)[i].key)
    decreases |items|
  {
    if |items| > 0 {
      var init := items[..|items| - 1];
      var x := items[|items| - 1];
      var gs := GroupBy(init);
      GroupHours(init);
      var r := GroupBy(items);
      assert r == Add(gs, x);
      match FirstIndex(gs, x.key)
      case Some(j) =>
        forall i | 0 <= i < |r| ensures r[i].hours == HoursOf(items, r[i].key) {
          if i != j {
            assert r[i] == gs[i];
            assert gs[i].key != gs[j].key by {
              assert DistinctKeys(gs);
              if i < j {} else {}
            }
          }
        }
      case None =>
        forall i | 0 <= i < |r| ensures r[i].hours == HoursOf(items, r[i].key) {
          if i < |gs| {
            assert r[i] == gs[i];
          } else {
            assert r[i] == x;
            HoursOfAbsent(init, x.key);
          }
        }
    }
  }

  /** Each group carries the label of the first row with its key. */
  lemma {:induction false} GroupLabels<K, L>(items: seq<Tally<K, L>>)
    ensures forall i :: 0 <= i < |GroupBy(items)| ==>
              var f := FirstIndex(items, GroupBy(items)[i].key);
              f.Some? && GroupBy(items)[i].info == items[f.value].info
    decreases |items|
  {
    if |items| > 0 {
      var init := items[..|items| - 1];
      var x := items[|items| - 1];
      var gs := GroupBy(init);
      GroupLabels(init);
      var r := GroupBy(items);
      assert r == Add(gs, x);
      forall i | 0 <= i < |r|
        ensures FirstIndex(items, r[i].key).Some? && r[i].info == items[FirstIndex(items, r[i].key).value].info
      {
        if i < |gs| {
          assert r[i].key == gs[i].key && r[i].info == gs[i].info;
          var f := FirstIndex(init, gs[i].key);
          assert f.Some?;
          assert FirstIndex(items, r[i].key) == f;
          assert items[f.value] == init[f.value];
        } else {
          assert r[i] == x;
          assert FirstIndex(init, x.key).None?;
        }
      }
    }
  }

  /** Key `a` first occurs in `items` before key `b` does. */
  predicate Before<K(==), L>(items: seq<Tally<K, L>>, a: K, b: K) {
    && FirstIndex(items, a).Some? && FirstIndex(items, b).Some?
    && FirstIndex(items, a).value < FirstIndex(items, b).value
  }

  /** Groups `gs` appear in the order in which their keys first occur in `items`. */
  predicate FirstSeenOrder<K(==), L>(items: seq<Tally<K, L>>, gs: seq<Tally<K, L>>) {
    forall i, j :: 0 <= i < j < |gs| ==> Before(items, gs[i].key, gs[j].key)
  }

  /** Appending a row does not move the first occurrence of a key already present. */
  lemma {:induction false} FirstIndexSnoc<K, L>(ts: seq<Tally<K, L>>, x: Tally<K, L>, k: K)
    requires k in KeysOf(ts)
    ensures FirstIndex(ts + [x], k) == FirstIndex(ts, k)
  {
    assert (ts + [x])[..|ts|] == ts;
  }

  /** Folding a row into an existing group keeps the groups in first-seen order. */
  lemma {:induction false} OrderAfterMerge<K, L>(init: seq<Tally<K, L>>, x: Tally<K, L>, items: seq<Tally<K, L>>, gs: seq<Tally<K, L>>)
    requires items == init + [x]
    requires FirstSeenOrder(init, gs) && KeysOf(gs) == KeysOf(init)
    requires FirstIndex(gs, x.key).Some?
    ensures FirstSeenOrder(items, Add(gs, x))
  {
    var r := Add(gs, x);
    var m := FirstIndex(gs, x.key).value;
    assert r == gs[m := gs[m].(hours := gs[m].hours + x.hours)];
    forall i, j | 0 <= i < j < |r| ensures Before(items, r[i].key, r[j].key) {
      assert r[i].key == gs[i].key && r[j].key == gs[j].key;
      assert gs[i].key in KeysOf(gs) && gs[j].key in KeysOf(gs);
      FirstIndexSnoc(init, x, gs[i].key);
      FirstIndexSnoc(init, x, gs[j].key);
      assert Before(init, gs[i].key, gs[j].key);
    }
  }

  /** Opening a new group for a new key keeps the groups in first-seen order. */
  lemma {:induction false} OrderAfterNew<K, L>(init: seq<Tally<K, L>>, x: Tally<K, L>, items: seq<Tally<K, L>>, gs: seq<Tally<K, L>>)
    requires items == init + [x]
    requires FirstSeenOrder(init, gs) && KeysOf(gs) == KeysOf(init)
    requires FirstIndex(gs, x.key).None?
    ensures FirstSeenOrder(items, Add(gs, x))
  {
    var r := Add(gs, x);
    assert r == gs + [x];
    assert items[..|init|] == init;
    assert FirstIndex(init, x.key).None?;
    assert FirstIndex(items, x.key) == Some(|init|);
    forall i, j | 0 <= i < j < |r| ensures Before(items, r[i].key, r[j].key) {
      assert r[i] == gs[i] && gs[i].key in KeysOf(gs);
      FirstIndexSnoc(init, x, gs[i].key);
      if j < |gs| {
        assert r[j] == gs[j] && gs[j].key in KeysOf(gs);
        FirstIndexSnoc(init, x, gs[j].key);
        assert Before(init, gs[i].key, gs[j].key);
      } else {
        assert r[j] == x;
      }
    }
  }

  /** Groups come out in first-seen order: a group precedes every group whose key first occurs later. */
  lemma {:induction false} GroupOrder<K, L>(items: seq<Tally<K, L>>)
    ensures FirstSeenOrder(items, GroupBy(items))
    decreases |items|
  {
    if |items| > 0 {
      var init := items[..|items| - 1];
      var x := items[|items| - 1];
      assert items == init + [x];
      var gs := GroupBy(init);
      GroupOrder(init);
      assert GroupBy(items) == Add(gs, x);
      if FirstIndex(gs, x.key).Some? {
        OrderAfterMerge(init, x, items, gs);
      } else {
        OrderAfterNew(init, x, items, gs);
      }
    }
  }

  /** Adding a row adds its hours to the total, whichever group it lands in. */
  lemma {:induction false} AddSum<K, L>(gs: seq<Tally<K, L>>, x: Tally<K, L>)
    ensures SumHours(Add(gs, x)) == SumHours(gs) + x.hours
  {
    match FirstIndex(gs, x.key)
    case Some(j) =>
      SumHoursUpdate(gs, j, gs[j].hours + x.hours);
    case None =>
      assert (gs + [x])[..|gs|] == gs;
  }

  /** Grouping neither loses nor invents hours. */
  lemma {:induction false} GroupTotal<K, L>(items: seq<Tally<K, L>>)
    ensures SumHours(GroupBy(items)) == SumHours(items)
    decreases |items|
  {
    if |items| > 0 {
      var init := items[..|items| - 1];
      GroupTotal(init);
      AddSum(GroupBy(init), items[|items| - 1]);
    }
  }
}

=== FILE: hours.dfy ===
/**
 * Sums of logged hours and the selections they are taken over.
 *
 * Every fold here peels the LAST element, so it reads like the `reduce` and
 * `forEach` loops of the controllers, and appending one entry is one step.
 */
module Hours {
  import opened Results
  import opened Domain

  /** The entries that satisfy `p`, in their original order. */
  function Select(es: seq<TimeEntry>, p: TimeEntry -> bool): (r: seq<TimeEntry>)
    ensures |r| <= |es|
    ensures forall e :: e in r <==> e in es && p(e)
  {
    if |es| == 0 then []
    else
      var init := Select(es[..|es| - 1], p);
      assert es == es[..|es| - 1] + [es[|es| - 1]];
      if p(es[|es| - 1]) then init + [es[|es| - 1]] else init
  }

  /** Sum of `hours` over all entries, accumulated from zero in list order. */
  function TotalHours(es: seq<TimeEntry>): real {
    if |es| == 0 then 0.0 else TotalHours(es[..|es| - 1]) + es[|es| - 1].hours
  }

  predicate IsBillable(e: TimeEntry) {
    e.isBillable
  }

  /** Sum of `hours` over the billable entries only, in list order. */
  function BillableHours(es: seq<TimeEntry>): real {
    TotalHours(Select(es, IsBillable))
  }

  /** Whether an entry points at timesheet `t`. */
  function AttachedTo(t: nat): TimeEntry -> bool {
    (e: TimeEntry) => e.timesheetId == Some(t)
  }

  /** The entries whose `timesheetId` points at timesheet `t`. */
  function Attached(es: seq<TimeEntry>, t: nat): seq<TimeEntry> {
    Select(es, AttachedTo(t))
  }

  predicate NonNegativeHours(es: seq<TimeEntry>) {
    forall i :: 0 <= i < |es| ==> es[i].hours >= 0.0
  }

  lemma {:induction false} SelectAppend(a: seq<TimeEntry>, b: seq<TimeEntry>, p: TimeEntry -> bool)
    ensures Select(a + b, p) == Select(a, p) + Select(b, p)
    decreases |b|
  {
    if |b| == 0 {
      assert a + b == a;
    } else {
      var b' := b[..|b| - 1];
      assert (a + b)[..|a + b| - 1] == a + b';
      assert (a + b)[|a + b| - 1] == b[|b| - 1];
      SelectAppend(a, b', p);
    }
  }

  /** Summing is additive over concatenation. */
  lemma {:induction false} TotalAppend(a: seq<TimeEntry>, b: seq<TimeEntry>)
    ensures TotalHours(a + b) == TotalHours(a) + TotalHours(b)
    decreases |b|
  {
    if |b| == 0 {
      assert a + b == a;
    } else {
      var b' := b[..|b| - 1];
      assert (a + b)[..|a + b| - 1] == a + b';
      assert (a + b)[|a + b| - 1] == b[|b| - 1];
      TotalAppend(a, b');
    }
  }

  /** Selecting over one more entry keeps it at the end exactly when it satisfies the filter. */
  lemma {:induction false} SelectSnoc(xs: seq<TimeEntry>, x: TimeEntry, p: TimeEntry -> bool)
    ensures Select(xs + [x], p) == if p(x) then Select(xs, p) + [x] else Select(xs, p)
  {
    assert (xs + [x])[..|xs|] == xs;
  }

  lemma {:induction false} TotalSnoc(xs: seq<TimeEntry>, x: TimeEntry)
    ensures TotalHours(xs + [x]) == TotalHours(xs) + x.hours
  {
    assert (xs + [x])[..|xs|] == xs;
  }

  lemma {:induction false} BillableSnoc(xs: seq<TimeEntry>, x: TimeEntry)
    ensures BillableHours(xs + [x]) == BillableHours(xs) + (if x.isBillable then x.hours else 0.0)
  {
    SelectSnoc(xs, x, IsBillable);
    if x.isBillable {
      TotalSnoc(Select(xs, IsBillable), x);
    }
  }

  /** Billable hours are additive over concatenation too. */
  lemma {:induction false} BillableAppend(a: seq<TimeEntry>, b: seq<TimeEntry>)
    ensures BillableHours(a + b) == BillableHours(a) + BillableHours(b)
  {
    SelectAppend(a, b, IsBillable);
    TotalAppend(Select(a, IsBillable), Select(b, IsBillable));
  }

  /** With no negative entry, `0 <= billable <= total`, so the non-billable part is not negative either. */
  lemma {:induction false} BillableWithinTotal(es: seq<TimeEntry>)
    requires NonNegativeHours(es)
    ensures 0.0 <= BillableHours(es) <= TotalHours(es)
    decreases |es|
  {
    if |es| > 0 {
      var init := es[..|es| - 1];
      assert NonNegativeHours(init) by {
        forall i | 0 <= i < |init| ensures init[i].hours >= 0.0 {
          assert init[i] == es[i];
        }
      }
      BillableWithinTotal(init);
      assert es[|es| - 1].hours >= 0.0;
    }
  }

  /** When every entry is billable the two sums coincide. */
  lemma {:induction false} AllBillable(es: seq<TimeEntry>)
    requires forall i :: 0 <= i < |es| ==> es[i].isBillable
    ensures BillableHours(es) == TotalHours(es)
    decreases |es|
  {
    if |es| > 0 {
      var init := es[..|es| - 1];
      assert forall i :: 0 <= i < |init| ==> init[i].isBillable by {
        forall i | 0 <= i < |init| ensures init[i].isBillable {
          assert init[i] == es[i];
        }
      }
      AllBillable(init);
    }
  }

  /** Replacing one entry by another leaves a selection alone when neither satisfies the filter. */
  lemma {:induction false} SelectUpdateOutside(es: seq<TimeEntry>, k: nat, e': TimeEntry, p: TimeEntry -> bool)
    requires k < |es| && !p(es[k]) && !p(e')
    ensures Select(es[k := e'], p) == Select(es, p)
  {
    var a, b := es[..k], es[k + 1..];
    assert es == (a + [es[k]]) + b;
    assert es[k := e'] == (a + [e']) + b;
    SelectAppend(a + [es[k]], b, p);
    SelectAppend(a + [e'], b, p);
    SelectSnoc(a, es[k], p);
    SelectSnoc(a, e', p);
  }

  /** An entry that fails the filter contributes nothing to a selection, wherever it sits. */
  lemma {:induction false} SelectSkip(a: seq<TimeEntry>, x: TimeEntry, b: seq<TimeEntry>, p: TimeEntry -> bool)
    requires !p(x)
    ensures Select(a + [x] + b, p) == Select(a + b, p)
  {
    calc {
      Select(a + b, p);
      { SelectAppend(a, b, p); }
      Select(a, p) + Select(b, p);
      { SelectSnoc(a, x, p); }
      Select(a + [x], p) + Select(b, p);
      { SelectAppend(a + [x], b, p); }
      Select(a + [x] + b, p);
    }
  }

  /** Removing an entry leaves a selection alone when that entry does not satisfy the filter. */
  lemma {:induction false} SelectRemoveOutside(es: seq<TimeEntry>, k: nat, p: TimeEntry -> bool)
    requires k < |es| && !p(es[k])
    ensures Select(es[..k] + es[k + 1..], p) == Select(es, p)
  {
    assert es == es[..k] + [es[k]] + es[k + 1..];
    SelectSkip(es[..k], es[k], es[k + 1..], p);
  }
}

=== FILE: invariants.dfy ===
/**
 * Store invariants that the handlers of both controllers preserve, and the
 * properties that link the workflow to the edit lock.
 *
 * `Valid` is the structural part: one timesheet per user and week, entry ids
 * fresh and distinct, every entry's timesheet existing, at most one approval
 * per timesheet, and every approval's status mirrored by its timesheet's. `SnapshotsCurrent` is what
 * the edit lock is for: the totals written at submission still equal the sums
 * over the attached entries, for every timesheet that has left DRAFT.
 */
module Invariants {
  import opened Results
  import opened Domain
  import opened Hours
  import opened TimeEntries
  import opened Timesheets

  /** At most one timesheet per (user, week start): the store's uniqueness constraint. */
  predicate OneSheetPerWeek(ts: seq<Timesheet>) {
    forall i, j :: 0 <= i < j < |ts| ==> !(ts[i].userId == ts[j].userId && ts[i].weekStart == ts[j].weekStart)
  }

  /** Entry ids are below the store's counter and pairwise distinct. */
  predicate EntryIdsFresh(s: Store) {
    && (forall k :: 0 <= k < |s.entries| ==> s.entries[k].id < s.nextEntryId)
    && (forall i, j :: 0 <= i < j < |s.entries| ==> s.entries[i].id != s.entries[j].id)
  }

  /** At most one approval per timesheet: a timesheet is submitted at most once. */
  predicate OneApprovalPerSheet(approvals: seq<Approval>) {
    forall i, j :: 0 <= i < j < |approvals| ==> approvals[i].timesheetId != approvals[j].timesheetId
  }

  /** The timesheet status that goes with an approval status. */
  function MirroredStatus(a: ApprovalStatus): SheetStatus {
    match a
    case Pending => Submitted
    case Approved => SheetStatus.Approved
    case Rejected => SheetStatus.Rejected
  }

  /** Every approval names an existing timesheet whose status mirrors the approval's. */
  predicate ApprovalsMirrored(s: Store) {
    forall k :: 0 <= k < |s.approvals| ==>
      && s.approvals[k].timesheetId < |s.timesheets|
      && s.timesheets[s.approvals[k].timesheetId].status == MirroredStatus(s.approvals[k].status)
  }

  /**
   * The foreign key of an entry's `timesheetId`: an entry that names a
   * timesheet names one that exists.
   */
  predicate EntrySheetsExist(s: Store) {
    forall k :: 0 <= k < |s.entries| && s.entries[k].timesheetId.Some? ==>
      s.entries[k].timesheetId.value < |s.timesheets|
  }

  predicate Valid(s: Store) {
    && OneSheetPerWeek(s.timesheets)
    && EntryIdsFresh(s)
    && EntrySheetsExist(s)
    && OneApprovalPerSheet(s.approvals)
    && ApprovalsMirrored(s)
  }

  /** The submitted totals of timesheet `i` agree with its attached entries. */
  predicate SnapshotOk(sheet: Timesheet, es: seq<TimeEntry>, i: nat) {
    && sheet.totalHours == TotalHours(Attached(es, i))
    && sheet.billableHours == BillableHours(Attached(es, i))
    && sheet.nonBillableHours == sheet.totalHours - sheet.billableHours
  }

  /** Every timesheet that has left DRAFT still carries correct totals. */
  predicate SnapshotsCurrent(s: Store) {
    forall i :: 0 <= i < |s.timesheets| && s.timesheets[i].status != Draft ==> SnapshotOk(s.timesheets[i], s.entries, i)
  }

  /** The lifecycle DRAFT -> SUBMITTED -> APPROVED | REJECTED, one step at most. */
  predicate AllowedMove(before: SheetStatus, after: SheetStatus) {
    || before == after
    || (before == Draft && after == Submitted)
    || (before == Submitted && (after == SheetStatus.Approved || after == SheetStatus.Rejected))
  }

  /** No timesheet disappears and each existing one moves along the lifecycle. */
  predicate Advances(s: Store, s': Store) {
    && |s.timesheets| <= |s'.timesheets|
    && forall i :: 0 <= i < |s.timesheets| ==> AllowedMove(s.timesheets[i].status, s'.timesheets[i].status)
  }

  /**
   * In a valid store the edit lock is exactly "attached to a timesheet that
   * has left DRAFT": the missing-timesheet case of the lock cannot arise.
   */
  lemma {:induction false} LockedExactlyWhenSubmitted(s: Store, k: nat)
    requires Valid(s) && k < |s.entries|
    ensures var e := s.entries[k];
            && (e.timesheetId.Some? ==> e.timesheetId.value < |s.timesheets|)
            && (EditLocked(s, e) <==> e.timesheetId.Some? && s.timesheets[e.timesheetId.value].status != Draft)
  {
  }

  /** A DRAFT timesheet has no approval. */
  lemma {:induction false} DraftHasNoApproval(s: Store, id: nat)
    requires Valid(s)
    requires id < |s.timesheets| && s.timesheets[id].status == Draft
    ensures forall k :: 0 <= k < |s.approvals| ==> s.approvals[k].timesheetId != id
  {
    forall k | 0 <= k < |s.approvals| ensures s.approvals[k].timesheetId != id {
      assert MirroredStatus(s.approvals[k].status) != Draft;
    }
  }

  lemma {:induction false} CreateOrGetPreserves(s: Store, caller: Caller, weekStart: Day)
    requires Valid(s) && SnapshotsCurrent(s)
    ensures var s' := CreateOrGetTimesheet(s, caller, weekStart).0;
            Valid(s') && SnapshotsCurrent(s') && Advances(s, s')
  {
    var (s', id) := CreateOrGetTimesheet(s, caller, weekStart);
    if FindSheet(s.timesheets, caller.userId, weekStart).None? {
      assert forall i :: 0 <= i < |s.timesheets| ==> s'.timesheets[i] == s.timesheets[i];
      assert OneSheetPerWeek(s'.timesheets);
    }
  }

  lemma {:induction false} SubmitPreserves(s: Store, caller: Caller, id: nat, now: Timestamp)
    requires Valid(s) && SnapshotsCurrent(s)
    requires SubmitTimesheet(s, caller, id, now).Success?
    ensures var s' := SubmitTimesheet(s, caller, id, now).value.0;
            Valid(s') && SnapshotsCurrent(s') && Advances(s, s')
  {
    var (s', sheet') := SubmitTimesheet(s, caller, id, now).value;
    DraftHasNoApproval(s, id);
    assert forall k :: 0 <= k < |s.approvals| ==> s'.approvals[k] == s.approvals[k];
    assert ApprovalsMirrored(s');
    assert OneApprovalPerSheet(s'.approvals);
  }

  lemma {:induction false} ApprovePreserves(s: Store, caller: Caller, id: nat, now: Timestamp)
    requires IsManagerRole(caller.role)
    requires Valid(s) && SnapshotsCurrent(s)
    requires ApproveTimesheet(s, caller, id, now).Success?
    ensures var s' := ApproveTimesheet(s, caller, id, now).value.0;
            Valid(s') && SnapshotsCurrent(s') && Advances(s, s')
  {
    var s' := ApproveTimesheet(s, caller, id, now).value.0;
    var k := FindPending(s.approvals, id, caller.userId).value;
    assert s.timesheets[id].status == Submitted;
    forall j | 0 <= j < |s'.approvals|
      ensures s'.approvals[j].timesheetId < |s'.timesheets|
      ensures s'.timesheets[s'.approvals[j].timesheetId].status == MirroredStatus(s'.approvals[j].status)
    {
      if j != k {
        assert s.approvals[j].timesheetId != id by {
          if j < k {} else {}
        }
      }
    }
  }

  lemma {:induction false} RejectPreserves(s: Store, caller: Caller, id: nat, reason: Option<string>, now: Timestamp)
    requires IsManagerRole(caller.role)
    requires Valid(s) && SnapshotsCurrent(s)
    requires RejectTimesheet(s, caller, id, reason, now).Success?
    ensures var s' := RejectTimesheet(s, caller, id, reason, now).value.0;
            Valid(s') && SnapshotsCurrent(s') && Advances(s, s')
  {
    var s' := RejectTimesheet(s, caller, id, reason, now).value.0;
    var k := FindPending(s.approvals, id, caller.userId).value;
    assert s.timesheets[id].status == Submitted;
    forall j | 0 <= j < |s'.approvals|
      ensures s'.approvals[j].timesheetId < |s'.timesheets|
      ensures s'.timesheets[s'.approvals[j].timesheetId].status == MirroredStatus(s'.approvals[j].status)
    {
      if j != k {
        assert s.approvals[j].timesheetId != id by {
          if j < k {} else {}
        }
      }
    }
  }

  lemma {:induction false} CreateEntryPreserves(s: Store, caller: Caller, req: NewEntry)
    requires Valid(s) && SnapshotsCurrent(s)
    requires CreateTimeEntry(s, caller, req).Success?
    ensures var s' := CreateTimeEntry(s, caller, req).value.0;
            Valid(s') && SnapshotsCurrent(s') && Advances(s, s')
  {
    var (s', e) := CreateTimeEntry(s, caller, req).value;
    assert s'.entries[..|s.entries|] == s.entries;
    forall i | 0 <= i < |s'.timesheets| && s'.timesheets[i].status != Draft
      ensures SnapshotOk(s'.timesheets[i], s'.entries, i)
    {
      assert Attached(s'.entries, i) == Attached(s.entries, i);
    }
  }

  lemma {:induction false} UpdateEntryPreserves(s: Store, caller: Caller, id: nat, p: EntryPatch)
    requires Valid(s) && SnapshotsCurrent(s)
    requires UpdateTimeEntry(s, caller, id, p).Success?
    ensures var s' := UpdateTimeEntry(s, caller, id, p).value.0;
            Valid(s') && SnapshotsCurrent(s') && Advances(s, s')
  {
    var (s', e') := UpdateTimeEntry(s, caller, id, p).value;
    var k := FindEntry(s.entries, id).value;
    forall i | 0 <= i < |s'.timesheets| && s'.timesheets[i].status != Draft
      ensures SnapshotOk(s'.timesheets[i], s'.entries, i)
    {
      assert !AttachedTo(i)(s.entries[k]);
      SelectUpdateOutside(s.entries, k, e', AttachedTo(i));
    }
  }

  /**
   * Removing one entry keeps the remaining ids below the counter and
   * distinct, and every remaining entry's timesheet existing.
   */
  lemma {:induction false} RemoveKeepsIdsFresh(s: Store, k: nat)
    requires EntryIdsFresh(s) && EntrySheetsExist(s) && k < |s.entries|
    ensures EntryIdsFresh(s.(entries := s.entries[..k] + s.entries[k + 1..]))
    ensures EntrySheetsExist(s.(entries := s.entries[..k] + s.entries[k + 1..]))
  {
    var es := s.entries;
    var es' := es[..k] + es[k + 1..];
    assert forall i :: 0 <= i < |es'| ==> es'[i] == (if i < k then es[i] else es[i + 1]);
    forall i, j | 0 <= i < j < |es'| ensures es'[i].id != es'[j].id {
      var i' := if i < k then i else i + 1;
      var j' := if j < k then j else j + 1;
      assert es'[i] == es[i'] && es'[j] == es[j'] && i' < j';
    }
  }

  lemma {:induction false} DeleteEntryPreserves(s: Store, caller: Caller, id: nat)
    requires Valid(s) && SnapshotsCurrent(s)
    requires DeleteTimeEntry(s, caller, id).Success?
    ensures var s' := DeleteTimeEntry(s, caller, id).value;
            Valid(s') && SnapshotsCurrent(s') && Advances(s, s')
  {
    var s' := DeleteTimeEntry(s, caller, id).value;
    var k := FindEntry(s.entries, id).value;
    var es := s.entries;
    RemoveKeepsIdsFresh(s, k);
    forall i | 0 <= i < |s'.timesheets| && s'.timesheets[i].status != Draft
      ensures SnapshotOk(s'.timesheets[i], s'.entries, i)
    {
      assert !AttachedTo(i)(es[k]);
      SelectRemoveOutside(es, k, AttachedTo(i));
    }
  }

  /**
   * Submitting locks the timesheet's entries: afterwards every entry attached
   * to it is refused for update and delete by anyone otherwise allowed.
   */
  lemma {:induction false} SubmitLocksEntries(s: Store, caller: Caller, id: nat, now: Timestamp, other: Caller, entryId: nat, p: EntryPatch)
    requires SubmitTimesheet(s, caller, id, now).Success?
    requires var s' := SubmitTimesheet(s, caller, id, now).value.0;
             && FindEntry(s'.entries, entryId).Some?
             && s'.entries[FindEntry(s'.entries, entryId).value].timesheetId == Some(id)
             && MayActOn(other, s'.entries[FindEntry(s'.entries, entryId).value])
    ensures var s' := SubmitTimesheet(s, caller, id, now).value.0;
            && UpdateTimeEntry(s', other, entryId, p) == Failure(LockedTimesheet)
            && DeleteTimeEntry(s', other, entryId) == Failure(LockedTimesheet)
  {
  }

  /**
   * Once an approval has been resolved, the timesheet has no PENDING approval
   * left for anyone, so repeating approve or reject answers NotFound.
   */
  lemma {:induction false} NoPendingAfterResolution(s: Store, s': Store, id: nat, k: nat)
    requires OneApprovalPerSheet(s.approvals)
    requires k < |s.approvals| && s.approvals[k].timesheetId == id
    requires |s'.approvals| == |s.approvals|
    requires s'.approvals[k].status != ApprovalStatus.Pending
    requires forall j :: 0 <= j < |s.approvals| && j != k ==> s'.approvals[j] == s.approvals[j]
    ensures forall u :: FindPending(s'.approvals, id, u).None?
  {
    forall u ensures FindPending(s'.approvals, id, u).None? {
      forall j | 0 <= j < |s'.approvals| ensures !PendingFor(s'.approvals[j], id, u) {
        if j != k {
          assert s.approvals[j].timesheetId != id by {
            if j < k {} else {}
          }
        }
      }
    }
  }

  /** Approving twice: the second call answers NotFound, as does a later reject. */
  lemma {:induction false} ApproveTwiceFails(s: Store, caller: Caller, id: nat, now: Timestamp, later: Timestamp, reason: Option<string>)
    requires IsManagerRole(caller.role) && Valid(s)
    requires ApproveTimesheet(s, caller, id, now).Success?
    ensures var s' := ApproveTimesheet(s, caller, id, now).value.0;
            && ApproveTimesheet(s', caller, id, later) == Failure(NotFound)
            && (Present(reason) ==> RejectTimesheet(s', caller, id, reason, later) == Failure(NotFound))
  {
    var s' := ApproveTimesheet(s, caller, id, now).value.0;
    var k := FindPending(s.approvals, id, caller.userId).value;
    NoPendingAfterResolution(s, s', id, k);
  }

  /** Rejecting twice: the second call answers NotFound, as does a later approve. */
  lemma {:induction false} RejectTwiceFails(s: Store, caller: Caller, id: nat, reason: Option<string>, now: Timestamp, later: Timestamp)
    requires IsManagerRole(caller.role) && Valid(s)
    requires RejectTimesheet(s, caller, id, reason, now).Success?
    ensures var s' := RejectTimesheet(s, caller, id, reason, now).value.0;
            && RejectTimesheet(s', caller, id, reason, later) == Failure(NotFound)
            && ApproveTimesheet(s', caller, id, later) == Failure(NotFound)
  {
    var s' := RejectTimesheet(s, caller, id, reason, now).value.0;
    var k := FindPending(s.approvals, id, caller.userId).value;
    NoPendingAfterResolution(s, s', id, k);
  }
}

=== FILE: requests.dfy ===
/**
 * Any sequence of requests to the modelled handlers, and what holds after
 * all of them: the store invariants, and the fate of a timesheet submitted
 * by an owner without a manager.
 */
module Requests {
  import opened Results
  import opened Domain
  import opened TimeEntries
  import opened Timesheets
  import opened Invariants
  import opened Hours

  /** One request to a handler of either controller, with its caller and arguments. */
  datatype Request =
    | CreateOrGet(caller: Caller, weekStart: Day)
    | Submit(caller: Caller, id: nat, now: Timestamp)
    | Approve(caller: Caller, id: nat, now: Timestamp)
    | Reject(caller: Caller, id: nat, reason: Option<string>, now: Timestamp)
    | CreateEntry(caller: Caller, entry: NewEntry)
    | UpdateEntry(caller: Caller, entryId: nat, patch: EntryPatch)
    | DeleteEntry(caller: Caller, entryId: nat)

  /**
   * The store after one request: the handler's store when it succeeds, and
   * the same store when it fails or when the route's role gate turns the
   * caller away.
   */
  function Step(s: Store, q: Request): Store {
    match q
    case CreateOrGet(c, w) => CreateOrGetTimesheet(s, c, w).0
    case Submit(c, id, now) =>
      var r := SubmitTimesheet(s, c, id, now);
      if r.Success? then r.value.0 else s
    case Approve(c, id, now) =>
      if !IsManagerRole(c.role) then s
      else
        var r := ApproveTimesheet(s, c, id, now);
        if r.Success? then r.value.0 else s
    case Reject(c, id, reason, now) =>
      if !IsManagerRole(c.role) then s
      else
        var r := RejectTimesheet(s, c, id, reason, now);
        if r.Success? then r.value.0 else s
    case CreateEntry(c, e) =>
      var r := CreateTimeEntry(s, c, e);
      if r.Success? then r.value.0 else s
    case UpdateEntry(c, id, p) =>
      var r := UpdateTimeEntry(s, c, id, p);
      if r.Success? then r.value.0 else s
    case DeleteEntry(c, id) =>
      var r := DeleteTimeEntry(s, c, id);
      if r.Success? then r.value else s
  }

  /** The store after the requests, handled one after the other. */
  function Run(s: Store, qs: seq<Request>): Store
    decreases |qs|
  {
    if |qs| == 0 then s else Run(Step(s, qs[0]), qs[1..])
  }

  /** Every request keeps the store invariants and moves each timesheet along its lifecycle. */
  lemma {:induction false} StepPreserves(s: Store, q: Request)
    requires Valid(s) && SnapshotsCurrent(s)
    ensures Valid(Step(s, q)) && SnapshotsCurrent(Step(s, q)) && Advances(s, Step(s, q))
  {
    match q
    case CreateOrGet(c, w) => CreateOrGetPreserves(s, c, w);
    case Submit(c, id, now) =>
      if SubmitTimesheet(s, c, id, now).Success? { SubmitPreserves(s, c, id, now); }
    case Approve(c, id, now) =>
      if IsManagerRole(c.role) && ApproveTimesheet(s, c, id, now).Success? { ApprovePreserves(s, c, id, now); }
    case Reject(c, id, reason, now) =>
      if IsManagerRole(c.role) && RejectTimesheet(s, c, id, reason, now).Success? { RejectPreserves(s, c, id, reason, now); }
    case CreateEntry(c, e) =>
      if CreateTimeEntry(s, c, e).Success? { CreateEntryPreserves(s, c, e); }
    case UpdateEntry(c, id, p) =>
      if UpdateTimeEntry(s, c, id, p).Success? { UpdateEntryPreserves(s, c, id, p); }
    case DeleteEntry(c, id) =>
      if DeleteTimeEntry(s, c, id).Success? { DeleteEntryPreserves(s, c, id); }
  }

  /** Every store reachable from a valid one by handler requests is valid, with correct submitted totals. */
  lemma {:induction false} RunPreserves(s: Store, qs: seq<Request>)
    requires Valid(s) && SnapshotsCurrent(s)
    ensures Valid(Run(s, qs)) && SnapshotsCurrent(Run(s, qs))
    decreases |qs|
  {
    if |qs| > 0 {
      StepPreserves(s, qs[0]);
      RunPreserves(Step(s, qs[0]), qs[1..]);
    }
  }

  /** Timesheet `id` is SUBMITTED and no approval names it, so no manager has anything to act on. */
  predicate Stuck(s: Store, id: nat) {
    && id < |s.timesheets|
    && s.timesheets[id].status == Submitted
    && forall k :: 0 <= k < |s.approvals| ==> s.approvals[k].timesheetId != id
  }

  /** A stuck timesheet cannot be approved or rejected: both answer with an error and change nothing. */
  lemma {:induction false} StuckRefusesResolution(s: Store, id: nat, c: Caller, now: Timestamp, reason: Option<string>)
    requires Stuck(s, id) && IsManagerRole(c.role)
    ensures ApproveTimesheet(s, c, id, now) == Failure(NotFound)
    ensures RejectTimesheet(s, c, id, reason, now).Failure?
    ensures Present(reason) ==> RejectTimesheet(s, c, id, reason, now) == Failure(NotFound)
  {
    assert FindPending(s.approvals, id, c.userId).None?;
  }

  /** A successful submission is of a DRAFT timesheet, so it leaves a stuck one stuck. */
  lemma {:induction false} SubmitKeepsStuck(s: Store, c: Caller, id2: nat, now: Timestamp, id: nat)
    requires Stuck(s, id) && SubmitTimesheet(s, c, id2, now).Success?
    ensures Stuck(SubmitTimesheet(s, c, id2, now).value.0, id)
  {
    assert id2 != id;
    var s' := SubmitTimesheet(s, c, id2, now).value.0;
    assert forall k :: 0 <= k < |s'.approvals| ==> s'.approvals[k].timesheetId == id2 || s'.approvals[k] == s.approvals[k];
  }

  /** A successful approval acts on a timesheet some approval names, so not on a stuck one. */
  lemma {:induction false} ApproveKeepsStuck(s: Store, c: Caller, id2: nat, now: Timestamp, id: nat)
    requires IsManagerRole(c.role)
    requires Stuck(s, id) && ApproveTimesheet(s, c, id2, now).Success?
    ensures Stuck(ApproveTimesheet(s, c, id2, now).value.0, id)
  {
    var k := FindPending(s.approvals, id2, c.userId).value;
    assert id2 != id;
  }

  /** A successful rejection acts on a timesheet some approval names, so not on a stuck one. */
  lemma {:induction false} RejectKeepsStuck(s: Store, c: Caller, id2: nat, reason: Option<string>, now: Timestamp, id: nat)
    requires IsManagerRole(c.role)
    requires Stuck(s, id) && RejectTimesheet(s, c, id2, reason, now).Success?
    ensures Stuck(RejectTimesheet(s, c, id2, reason, now).value.0, id)
  {
    var k := FindPending(s.approvals, id2, c.userId).value;
    assert id2 != id;
  }

  /** No request unsticks a stuck timesheet. */
  lemma {:induction false} StepKeepsStuck(s: Store, q: Request, id: nat)
    requires Stuck(s, id)
    ensures Stuck(Step(s, q), id)
  {
    match q
    case CreateOrGet(c, w) =>
    case Submit(c, id2, now) =>
      if SubmitTimesheet(s, c, id2, now).Success? { SubmitKeepsStuck(s, c, id2, now, id); }
    case Approve(c, id2, now) =>
      if IsManagerRole(c.role) && ApproveTimesheet(s, c, id2, now).Success? { ApproveKeepsStuck(s, c, id2, now, id); }
    case Reject(c, id2, reason, now) =>
      if IsManagerRole(c.role) && RejectTimesheet(s, c, id2, reason, now).Success? { RejectKeepsStuck(s, c, id2, reason, now, id); }
    case CreateEntry(c, e) =>
    case UpdateEntry(c, eid, p) =>
    case DeleteEntry(c, eid) =>
  }

  /** A stuck timesheet stays stuck, whatever requests follow. */
  lemma {:induction false} StuckForever(s: Store, qs: seq<Request>, id: nat)
    requires Stuck(s, id)
    ensures Stuck(Run(s, qs), id)
    decreases |qs|
  {
    if |qs| > 0 {
      StepKeepsStuck(s, qs[0], id);
      StuckForever(Step(s, qs[0]), qs[1..], id);
    }
  }

  /**
   * A submission by an owner without a manager creates no approval, so the
   * timesheet is stuck: after any later requests it is still SUBMITTED, and
   * every manager's approve answers NotFound.
   */
  lemma {:induction false} SubmissionWithoutManagerIsStuck(s: Store, caller: Caller, id: nat, now: Timestamp,
                                                           later: seq<Request>, m: Caller, t: Timestamp)
    requires Valid(s)
    requires SubmitTimesheet(s, caller, id, now).Success?
    requires ManagerOf(s.users, s.timesheets[id].userId).None?
    ensures var s' := SubmitTimesheet(s, caller, id, now).value.0;
            && s'.approvals == s.approvals
            && Stuck(Run(s', later), id)
            && Run(s', later).timesheets[id].status == Submitted
            && (IsManagerRole(m.role) ==> ApproveTimesheet(Run(s', later), m, id, t) == Failure(NotFound))
  {
    var s' := SubmitTimesheet(s, caller, id, now).value.0;
    DraftHasNoApproval(s, id);
    assert Stuck(s', id);
    StuckForever(s', later, id);
    if IsManagerRole(m.role) {
      StuckRefusesResolution(Run(s', later), id, m, t, None);
    }
  }

  /** No entry of the store belongs to a timesheet. */
  predicate NoneAttached(s: Store) {
    forall k :: 0 <= k < |s.entries| ==> s.entries[k].timesheetId.None?
  }

  /** No handler sets an entry's timesheet: one request keeps every entry unattached. */
  lemma {:induction false} StepAttachesNothing(s: Store, q: Request)
    requires NoneAttached(s)
    ensures NoneAttached(Step(s, q))
  {
    match q
    case DeleteEntry(c, id) =>
      if DeleteTimeEntry(s, c, id).Success? {
        var k := FindEntry(s.entries, id).value;
        var es' := s.entries[..k] + s.entries[k + 1..];
        assert forall i :: 0 <= i < |es'| ==> es'[i] == (if i < k then s.entries[i] else s.entries[i + 1]);
      }
    case _ =>
  }

  /**
   * The code as written: starting from a store where no entry belongs to a
   * timesheet, no sequence of requests ever attaches one, so every
   * submission afterwards snapshots zero hours.
   */
  lemma {:induction false} RequestsAttachNothing(s: Store, qs: seq<Request>, c: Caller, id: nat, now: Timestamp)
    requires NoneAttached(s)
    ensures NoneAttached(Run(s, qs))
    ensures var r := SubmitTimesheet(Run(s, qs), c, id, now);
            r.Success? ==> r.value.1.totalHours == 0.0 && r.value.1.billableHours == 0.0
    decreases |qs|
  {
    if |qs| > 0 {
      StepAttachesNothing(s, qs[0]);
      RequestsAttachNothing(Step(s, qs[0]), qs[1..], c, id, now);
    } else {
      var es := s.entries;
      NoneAttachedSelectsNothing(es, id);
    }
  }

  /** With no entry attached, every timesheet's attached list is empty. */
  lemma {:induction false} NoneAttachedSelectsNothing(es: seq<TimeEntry>, id: nat)
    requires forall k :: 0 <= k < |es| ==> es[k].timesheetId.None?
    ensures Attached(es, id) == []
    decreases |es|
  {
    if |es| > 0 {
      NoneAttachedSelectsNothing(es[..|es| - 1], id);
    }
  }
}

=== FILE: results.dfy ===
/** Failure-carrying return types shared by every handler of the model. */
module Results {

  /** A value that may be absent: a missing request field, a nullable column. */
  datatype Option<+T> = None | Some(value: T) {

    /** The value, or `default` when absent. */
    function GetOr(default: T): T {
      match this
      case Some(v) => v
      case None => default
    }
  }

  /** The outcome of a handler: a value, or the error the request is answered with. */
  datatype Result<+T, +E> = Success(value: T) | Failure(error: E)
}

=== FILE: summary.dfy ===
/**
 * The weekly summary of `getWeeklySummary`: totals, the guarded billable
 * percentage, and hours grouped by day and by project over one user's
 * entries in a date window.
 */
module Summary {
  import opened Results
  import opened Domain
  import opened Hours
  import opened Grouping

  /** Hours per day; a day group carries no display information. */
  type DayGroup = Tally<Day, ()>

  /** Hours per project, with the project's name and client name for display. */
  type ProjectGroup = Tally<Id, Project>

  datatype WeeklySummary = WeeklySummary(
    totalHours: real,
    billableHours: real,
    nonBillableHours: real,
    billablePercentage: real,
    byDay: seq<DayGroup>,
    byProject: seq<ProjectGroup>)

  /** `part / whole * 100`, or 0 when `whole` is not positive. */
  function Percentage(part: real, whole: real): (r: real)
    ensures whole <= 0.0 ==> r == 0.0
    ensures whole > 0.0 ==> r * whole == part * 100.0
    ensures 0.0 <= part <= whole ==> 0.0 <= r <= 100.0
  {
    if whole > 0.0 then part / whole * 100.0 else 0.0
  }

  /** The display information a project group shows: the joined project row. */
  function ProjectLabel(projects: map<Id, Project>, projectId: Id): Project {
    if projectId in projects then projects[projectId] else Project("", "")
  }

  /** One row per entry, keyed by its date. */
  function DayItems(es: seq<TimeEntry>): (r: seq<DayGroup>)
    ensures |r| == |es|
    ensures forall i :: 0 <= i < |es| ==> r[i].key == es[i].date && r[i].hours == es[i].hours
  {
    if |es| == 0 then [] else DayItems(es[..|es| - 1]) + [Tally(es[|es| - 1].date, (), es[|es| - 1].hours)]
  }

  /** One row per entry, keyed by its project and labelled with the project's display data. */
  function ProjectItems(es: seq<TimeEntry>, projects: map<Id, Project>): (r: seq<ProjectGroup>)
    ensures |r| == |es|
    ensures forall i :: 0 <= i < |es| ==>
              r[i].key == es[i].projectId && r[i].hours == es[i].hours && r[i].info == ProjectLabel(projects, es[i].projectId)
  {
    if |es| == 0 then []
    else
      var e := es[|es| - 1];
      ProjectItems(es[..|es| - 1], projects) + [Tally(e.projectId, ProjectLabel(projects, e.projectId), e.hours)]
  }

  /** The summary of a list of entries, already restricted to one user and window. */
  function Summarize(es: seq<TimeEntry>, projects: map<Id, Project>): (r: WeeklySummary)
    ensures r.totalHours == r.billableHours + r.nonBillableHours
    ensures r.totalHours <= 0.0 ==> r.billablePercentage == 0.0
    ensures DistinctKeys(r.byDay) && DistinctKeys(r.byProject)
  {
    var total := TotalHours(es);
    var billable := BillableHours(es);
    WeeklySummary(total, billable, total - billable, Percentage(billable, total),
                  GroupBy(DayItems(es)), GroupBy(ProjectItems(es, projects)))
  }

  /** The dates that occur among the entries. */
  function Dates(es: seq<TimeEntry>): set<Day> {
    set i | 0 <= i < |es| :: es[i].date
  }

  /** The projects that occur among the entries. */
  function ProjectIds(es: seq<TimeEntry>): set<Id> {
    set i | 0 <= i < |es| :: es[i].projectId
  }

  /** The entries dated `d`. */
  function OnDay(es: seq<TimeEntry>, d: Day): seq<TimeEntry> {
    Select(es, (e: TimeEntry) => e.date == d)
  }

  /** The entries logged against project `p`. */
  function OnProject(es: seq<TimeEntry>, p: Id): seq<TimeEntry> {
    Select(es, (e: TimeEntry) => e.projectId == p)
  }

  lemma {:induction false} DayItemsSums(es: seq<TimeEntry>, d: Day)
    ensures SumHours(DayItems(es)) == TotalHours(es)
    ensures HoursOf(DayItems(es), d) == TotalHours(OnDay(es, d))
    decreases |es|
  {
    if |es| > 0 {
      var init := es[..|es| - 1];
      var e := es[|es| - 1];
      DayItemsSums(init, d);
      var items := DayItems(es);
      assert items[..|items| - 1] == DayItems(init);
      if e.date == d {
        assert OnDay(es, d) == OnDay(init, d) + [e];
        TotalAppend(OnDay(init, d), [e]);
        assert TotalHours([e]) == e.hours by { assert [e][..0] == []; }
      }
    }
  }

  lemma {:induction false} ProjectItemsSums(es: seq<TimeEntry>, projects: map<Id, Project>, p: Id)
    ensures SumHours(ProjectItems(es, projects)) == TotalHours(es)
    ensures HoursOf(ProjectItems(es, projects), p) == TotalHours(OnProject(es, p))
    decreases |es|
  {
    if |es| > 0 {
      var init := es[..|es| - 1];
      var e := es[|es| - 1];
      ProjectItemsSums(init, projects, p);
      var items := ProjectItems(es, projects);
      assert items[..|items| - 1] == ProjectItems(init, projects);
      if e.projectId == p {
        assert OnProject(es, p) == OnProject(init, p) + [e];
        TotalAppend(OnProject(init, p), [e]);
        assert TotalHours([e]) == e.hours by { assert [e][..0] == []; }
      }
    }
  }

  lemma {:induction false} DayKeys(es: seq<TimeEntry>)
    ensures KeysOf(DayItems(es)) == Dates(es)
  {
    var items := DayItems(es);
    forall d | d in Dates(es) ensures d in KeysOf(items) {
      var i :| 0 <= i < |es| && es[i].date == d;
      assert items[i].key == d;
    }
  }

  lemma {:induction false} ProjectKeys(es: seq<TimeEntry>, projects: map<Id, Project>)
    ensures KeysOf(ProjectItems(es, projects)) == ProjectIds(es)
  {
    var items := ProjectItems(es, projects);
    forall p | p in ProjectIds(es) ensures p in KeysOf(items) {
      var i :| 0 <= i < |es| && es[i].projectId == p;
      assert items[i].key == p;
    }
  }

  /**
   * By day: one group per distinct date, each holding the hours of the entries
   * on that date, and together holding all the hours.
   */
  lemma {:induction false} ByDayCorrect(es: seq<TimeEntry>, projects: map<Id, Project>)
    ensures var r := Summarize(es, projects);
            && KeysOf(r.byDay) == Dates(es)
            && (forall i :: 0 <= i < |r.byDay| ==> r.byDay[i].hours == TotalHours(OnDay(es, r.byDay[i].key)))
            && SumHours(r.byDay) == r.totalHours
  {
    var items := DayItems(es);
    var groups := GroupBy(items);
    DayKeys(es);
    GroupHours(items);
    forall i | 0 <= i < |groups| ensures groups[i].hours == TotalHours(OnDay(es, groups[i].key)) {
      DayItemsSums(es, groups[i].key);
    }
    GroupTotal(items);
    DayItemsSums(es, 0);
  }

  /**
   * By project: one group per distinct project, each holding the hours of that
   * project's entries, and together holding all the hours.
   */
  lemma {:induction false} ByProjectCorrect(es: seq<TimeEntry>, projects: map<Id, Project>)
    ensures var r := Summarize(es, projects);
            && KeysOf(r.byProject) == ProjectIds(es)
            && (forall i :: 0 <= i < |r.byProject| ==> r.byProject[i].hours == TotalHours(OnProject(es, r.byProject[i].key)))
            && SumHours(r.byProject) == r.totalHours
  {
    var items := ProjectItems(es, projects);
    var groups := GroupBy(items);
    ProjectKeys(es, projects);
    GroupHours(items);
    forall i | 0 <= i < |groups| ensures groups[i].hours == TotalHours(OnProject(es, groups[i].key)) {
      ProjectItemsSums(es, projects, groups[i].key);
    }
    GroupTotal(items);
    ProjectItemsSums(es, projects, "");
  }

  /** The first entry seen for the project of group `i`, whose project data the group shows. */
  lemma {:induction false} ProjectGroupFirstSeen(es: seq<TimeEntry>, projects: map<Id, Project>, i: nat) returns (j: nat)
    ensures var groups := GroupBy(ProjectItems(es, projects));
            i < |groups| ==>
              && j < |es| && es[j].projectId == groups[i].key
              && (forall j' :: 0 <= j' < j ==> es[j'].projectId != groups[i].key)
              && groups[i].info == ProjectLabel(projects, es[j].projectId)
  {
    var items := ProjectItems(es, projects);
    var groups := GroupBy(items);
    j := 0;
    if i < |groups| {
      GroupLabels(items);
      j := FirstIndex(items, groups[i].key).value;
      forall j' | 0 <= j' < j ensures es[j'].projectId != groups[i].key {
        assert items[j'].key == es[j'].projectId;
      }
    }
  }

  /** Each project group shows the project data of the first entry seen for that project. */
  lemma {:induction false} ByProjectFirstSeen(es: seq<TimeEntry>, projects: map<Id, Project>, i: nat) returns (j: nat)
    ensures var r := Summarize(es, projects).byProject;
            i < |r| ==>
              && j < |es| && es[j].projectId == r[i].key
              && (forall j' :: 0 <= j' < j ==> es[j'].projectId != r[i].key)
              && r[i].info == ProjectLabel(projects, es[j].projectId)
  {
    assert Summarize(es, projects).byProject == GroupBy(ProjectItems(es, projects));
    j := ProjectGroupFirstSeen(es, projects, i);
  }

  /** No entries: every figure is zero and both groupings are empty. */
  lemma {:induction false} SummarizeEmpty(projects: map<Id, Project>)
    ensures Summarize([], projects) == WeeklySummary(0.0, 0.0, 0.0, 0.0, [], [])
  {
    assert Select([], IsBillable) == [];
  }

  /** With no negative entry the percentage is a true percentage. */
  lemma {:induction false} PercentageInRange(es: seq<TimeEntry>, projects: map<Id, Project>)
    requires NonNegativeHours(es)
    ensures var r := Summarize(es, projects);
            0.0 <= r.nonBillableHours && 0.0 <= r.billablePercentage <= 100.0
  {
    BillableWithinTotal(es);
  }

  /** All-billable work with positive hours is reported as 100% billable. */
  lemma {:induction false} AllBillablePercentage(es: seq<TimeEntry>, projects: map<Id, Project>)
    requires forall i :: 0 <= i < |es| ==> es[i].isBillable
    requires TotalHours(es) > 0.0
    ensures Summarize(es, projects).billablePercentage == 100.0
    ensures Summarize(es, projects).nonBillableHours == 0.0
  {
    AllBillable(es);
    var t := TotalHours(es);
    assert Percentage(t, t) == 100.0;
  }

  /** The entries of user `u` dated within `[lo, hi]`, both ends included. */
  function InWindow(es: seq<TimeEntry>, u: Id, lo: Day, hi: Day): seq<TimeEntry> {
    Select(es, (e: TimeEntry) => InWindowOf(e, u, lo, hi))
  }

  /**
   * `getWeeklySummary`: both bounds are required; the summary covers only the
   * caller's own entries within the window, whatever the caller's role.
   * An absent bound stands for a missing or empty query parameter.
   */
  function GetWeeklySummary(s: Store, caller: Caller, startDate: Option<Day>, endDate: Option<Day>)
    : (r: Result<WeeklySummary, Error>)
    ensures r.Failure? <==> startDate.None? || endDate.None?
    ensures r.Failure? ==> r.error == ValidationError
    ensures r.Success? ==> r.value.totalHours == r.value.billableHours + r.value.nonBillableHours
  {
    if startDate.None? || endDate.None? then Failure(ValidationError)
    else Success(Summarize(InWindow(s.entries, caller.userId, startDate.value, endDate.value), s.projects))
  }

  /** The entry `e` is one of `u`'s entries dated within `[lo, hi]`. */
  predicate InWindowOf(e: TimeEntry, u: Id, lo: Day, hi: Day) {
    e.userId == u && lo <= e.date <= hi
  }

  /** The dates in the window selection are exactly the dates of `u`'s entries inside the window. */
  lemma {:induction false} WindowDates(es: seq<TimeEntry>, u: Id, lo: Day, hi: Day)
    ensures forall d :: d in Dates(InWindow(es, u, lo, hi)) <==> exists e :: e in es && InWindowOf(e, u, lo, hi) && e.date == d
  {
    var w := InWindow(es, u, lo, hi);
    forall d ensures d in Dates(w) <==> exists e :: e in es && InWindowOf(e, u, lo, hi) && e.date == d {
      if d in Dates(w) {
        var j :| 0 <= j < |w| && w[j].date == d;
        assert w[j] in w;
      }
      if exists e :: e in es && InWindowOf(e, u, lo, hi) && e.date == d {
        var e :| e in es && InWindowOf(e, u, lo, hi) && e.date == d;
        assert e in w;
        var j :| 0 <= j < |w| && w[j] == e;
      }
    }
  }

  /** The projects in the window selection are exactly the projects of `u`'s entries inside the window. */
  lemma {:induction false} WindowProjects(es: seq<TimeEntry>, u: Id, lo: Day, hi: Day)
    ensures forall p :: p in ProjectIds(InWindow(es, u, lo, hi)) <==> exists e :: e in es && InWindowOf(e, u, lo, hi) && e.projectId == p
  {
    var w := InWindow(es, u, lo, hi);
    forall p ensures p in ProjectIds(w) <==> exists e :: e in es && InWindowOf(e, u, lo, hi) && e.projectId == p {
      if p in ProjectIds(w) {
        var j :| 0 <= j < |w| && w[j].projectId == p;
        assert w[j] in w;
      }
      if exists e :: e in es && InWindowOf(e, u, lo, hi) && e.projectId == p {
        var e :| e in es && InWindowOf(e, u, lo, hi) && e.projectId == p;
        assert e in w;
        var j :| 0 <= j < |w| && w[j] == e;
      }
    }
  }

  /**
   * The caller's day groups are exactly the dates of the caller's own entries
   * inside the window, each holding the hours of those entries on that date.
   */
  lemma {:induction false} WeeklySummaryDays(s: Store, caller: Caller, lo: Day, hi: Day)
    ensures var r := GetWeeklySummary(s, caller, Some(lo), Some(hi));
            && r.Success?
            && (forall d :: d in KeysOf(r.value.byDay) <==>
                  exists e :: e in s.entries && InWindowOf(e, caller.userId, lo, hi) && e.date == d)
            && (forall i :: 0 <= i < |r.value.byDay| ==>
                  r.value.byDay[i].hours == TotalHours(OnDay(InWindow(s.entries, caller.userId, lo, hi), r.value.byDay[i].key)))
  {
    var es := InWindow(s.entries, caller.userId, lo, hi);
    assert GetWeeklySummary(s, caller, Some(lo), Some(hi)).value == Summarize(es, s.projects);
    ByDayCorrect(es, s.projects);
    WindowDates(s.entries, caller.userId, lo, hi);
  }

  /**
   * The caller's project groups are exactly the projects of the caller's own
   * entries inside the window, each holding the hours of those entries on
   * that project.
   */
  lemma {:induction false} WeeklySummaryProjects(s: Store, caller: Caller, lo: Day, hi: Day)
    ensures var r := GetWeeklySummary(s, caller, Some(lo), Some(hi));
            && r.Success?
            && (forall p :: p in KeysOf(r.value.byProject) <==>
                  exists e :: e in s.entries && InWindowOf(e, caller.userId, lo, hi) && e.projectId == p)
            && (forall i :: 0 <= i < |r.value.byProject| ==>
                  r.value.byProject[i].hours == TotalHours(OnProject(InWindow(s.entries, caller.userId, lo, hi), r.value.byProject[i].key)))
  {
    var es := InWindow(s.entries, caller.userId, lo, hi);
    assert GetWeeklySummary(s, caller, Some(lo), Some(hi)).value == Summarize(es, s.projects);
    ByProjectCorrect(es, s.projects);
    WindowProjects(s.entries, caller.userId, lo, hi);
  }

  /** 8 billable hours on day 100 and 8 non-billable hours on day 101, on one project. */
  const ExampleWeek: seq<TimeEntry> :=
    [TimeEntry(0, "u", "p", "t", 100, 8.0, true, None, None, None),
     TimeEntry(1, "u", "p", "t", 101, 8.0, false, None, None, None)]

  /** The example week totals 16 hours, half of them billable. */
  lemma {:induction false} ExampleWeekTotals(projects: map<Id, Project>)
    ensures var r := Summarize(ExampleWeek, projects);
            && r.totalHours == 16.0 && r.billableHours == 8.0 && r.nonBillableHours == 8.0
            && r.billablePercentage == 50.0
  {
    var es := ExampleWeek;
    assert es[..1] == [es[0]];
    assert [es[0]][..0] == [];
    assert Select(es, IsBillable) == [es[0]];
    assert TotalHours([es[0]]) == 8.0;
    assert TotalHours(es) == 16.0;
    assert Percentage(8.0, 16.0) == 50.0;
  }

  /** The example week has one group per day, in first-seen order. */
  lemma {:induction false} ExampleWeekByDay(projects: map<Id, Project>)
    ensures Summarize(ExampleWeek, projects).byDay == [Tally(100, (), 8.0), Tally(101, (), 8.0)]
  {
    var items := DayItems(ExampleWeek);
    assert items == [Tally(100, (), 8.0), Tally(101, (), 8.0)];
    assert items[..1] == [Tally(100, (), 8.0)];
    assert items[..1][..0] == [];
    assert GroupBy(items[..1]) == [Tally(100, (), 8.0)];
  }

  /** The example week has a single project group holding all 16 hours. */
  lemma {:induction false} ExampleWeekByProject(projects: map<Id, Project>)
    ensures Summarize(ExampleWeek, projects).byProject == [Tally("p", ProjectLabel(projects, "p"), 16.0)]
  {
    var lbl := ProjectLabel(projects, "p");
    var items := ProjectItems(ExampleWeek, projects);
    assert items == [Tally("p", lbl, 8.0), Tally("p", lbl, 8.0)];
    assert items[..1] == [Tally("p", lbl, 8.0)];
    assert items[..1][..0] == [];
    var one := [Tally("p", lbl, 8.0)];
    assert GroupBy(items[..1]) == one;
    assert FirstIndex(one, "p") == Some(0) by {
      assert one[..0] == [];
    }
    assert Add(one, Tally("p", lbl, 8.0)) == [Tally("p", lbl, 16.0)];
  }
}

=== FILE: time_entries.dfy ===
/**
 * The time-entry handlers: creation with its task checks and defaults, the
 * role-dependent query filter, and the ownership and edit-lock guards of
 * update and delete.
 */
module TimeEntries {
  import opened Results
  import opened Domain
  import opened Hours

  /**
   * The edit lock: the entry belongs to a timesheet that exists and has left
   * DRAFT. An entry without a timesheet, or whose timesheet is missing, is
   * never locked.
   */
  predicate EditLocked(s: Store, e: TimeEntry) {
    && e.timesheetId.Some?
    && e.timesheetId.value < |s.timesheets|
    && s.timesheets[e.timesheetId.value].status != Draft
  }

  /** Ownership rule of update and delete: the owner, or any role other than EMPLOYEE. */
  predicate MayActOn(caller: Caller, e: TimeEntry) {
    e.userId == caller.userId || caller.role != Employee
  }

  /** The body of a create request; an absent field was not sent. */
  datatype NewEntry = NewEntry(
    projectId: Id,
    taskId: Id,
    date: Day,
    hours: real,
    isBillable: Option<bool>,
    hourlyRate: Option<real>,
    notes: Option<string>)

  /** A JavaScript number test: absent and zero are both falsy. */
  predicate RateGiven(rate: Option<real>) {
    rate.Some? && rate.value != 0.0
  }

  /**
   * `createTimeEntry`: the task must exist and belong to the named project.
   * The new entry is the caller's, starts outside any timesheet, takes
   * `isBillable` from the task unless the request sent one, and takes the
   * task's hourly rate unless the request sent a non-zero one.
   */
  function CreateTimeEntry(s: Store, caller: Caller, req: NewEntry): (r: Result<(Store, TimeEntry), Error>)
    ensures r.Failure? <==> req.taskId !in s.tasks || s.tasks[req.taskId].projectId != req.projectId
    ensures r.Failure? ==> r.error == ValidationError
    ensures r.Success? ==>
              var (s', e) := r.value;
              var task := s.tasks[req.taskId];
              && s' == s.(entries := s.entries + [e], nextEntryId := s.nextEntryId + 1)
              && e.id == s.nextEntryId
              && e.userId == caller.userId && e.projectId == req.projectId && e.taskId == req.taskId
              && e.date == req.date && e.hours == req.hours && e.notes == req.notes
              && e.timesheetId.None?
              && e.isBillable == (if req.isBillable.Some? then req.isBillable.value else task.isBillable)
              && (RateGiven(req.hourlyRate) ==> e.hourlyRate == req.hourlyRate)
              && (!RateGiven(req.hourlyRate) ==> e.hourlyRate == task.hourlyRate)
  {
    if req.taskId !in s.tasks || s.tasks[req.taskId].projectId != req.projectId then
      Failure(ValidationError)
    else
      var task := s.tasks[req.taskId];
      var e := TimeEntry(
        s.nextEntryId, caller.userId, req.projectId, req.taskId, req.date, req.hours,
        req.isBillable.GetOr(task.isBillable),
        if RateGiven(req.hourlyRate) then req.hourlyRate else task.hourlyRate,
        req.notes, None);
      Success((s.(entries := s.entries + [e], nextEntryId := s.nextEntryId + 1), e))
  }

  /** The query string of a list request; an absent field was not sent or was empty. */
  datatype EntryQuery = EntryQuery(
    startDate: Option<Day>,
    endDate: Option<Day>,
    projectId: Option<Id>,
    userId: Option<Id>)

  /** The typed `where` clause of a list request; an absent field does not filter. */
  datatype EntryFilter = EntryFilter(
    userId: Option<Id>,
    dateRange: Option<(Day, Day)>,
    projectId: Option<Id>)

  /**
   * The `where` builder of `getTimeEntries`: an EMPLOYEE is always pinned to
   * their own entries; other roles may name a user. The date range applies
   * only when both bounds are given.
   */
  function BuildFilter(caller: Caller, q: EntryQuery): (f: EntryFilter)
    ensures caller.role == Employee ==> f.userId == Some(caller.userId)
    ensures caller.role != Employee ==> f.userId == (if Present(q.userId) then q.userId else None)
    ensures f.dateRange.Some? <==> q.startDate.Some? && q.endDate.Some?
    ensures f.dateRange.Some? ==> f.dateRange.value == (q.startDate.value, q.endDate.value)
    ensures f.projectId == (if Present(q.projectId) then q.projectId else None)
  {
    EntryFilter(
      if caller.role == Employee then Some(caller.userId)
      else if Present(q.userId) then q.userId
      else None,
      if q.startDate.Some? && q.endDate.Some? then Some((q.startDate.value, q.endDate.value)) else None,
      if Present(q.projectId) then q.projectId else None)
  }

  /** Whether an entry satisfies every field of a filter; the date range is inclusive. */
  predicate Matches(f: EntryFilter, e: TimeEntry) {
    && (f.userId.Some? ==> e.userId == f.userId.value)
    && (f.dateRange.Some? ==> f.dateRange.value.0 <= e.date <= f.dateRange.value.1)
    && (f.projectId.Some? ==> e.projectId == f.projectId.value)
  }

  /** `getTimeEntries`: the entries of the store that match the caller's filter. */
  function GetTimeEntries(s: Store, caller: Caller, q: EntryQuery): (r: seq<TimeEntry>)
    ensures forall e :: e in r <==> e in s.entries && Matches(BuildFilter(caller, q), e)
    ensures caller.role == Employee ==> forall e :: e in r ==> e.userId == caller.userId
    ensures q.startDate.Some? && q.endDate.Some? ==>
              forall e :: e in r ==> q.startDate.value <= e.date <= q.endDate.value
  {
    var f := BuildFilter(caller, q);
    Select(s.entries, (e: TimeEntry) => Matches(f, e))
  }

  /** An EMPLOYEE cannot widen a listing by naming another user: the query's `userId` is ignored. */
  lemma {:induction false} EmployeeQueryIgnoresUserId(s: Store, caller: Caller, q: EntryQuery, other: Option<Id>)
    requires caller.role == Employee
    ensures GetTimeEntries(s, caller, q) == GetTimeEntries(s, caller, q.(userId := other))
  {
    assert BuildFilter(caller, q) == BuildFilter(caller, q.(userId := other));
  }

  /** The fields an update request may change; an absent field is left as it was. */
  datatype EntryPatch = EntryPatch(
    hours: Option<real>,
    isBillable: Option<bool>,
    hourlyRate: Option<real>,
    notes: Option<string>)

  /** The entry after an update: each supplied field replaced, everything else kept. */
  function ApplyPatch(e: TimeEntry, p: EntryPatch): (e': TimeEntry)
    ensures e'.id == e.id && e'.userId == e.userId && e'.projectId == e.projectId
    ensures e'.taskId == e.taskId && e'.date == e.date && e'.timesheetId == e.timesheetId
    ensures e'.hours == (if p.hours.Some? then p.hours.value else e.hours)
    ensures e'.isBillable == (if p.isBillable.Some? then p.isBillable.value else e.isBillable)
    ensures e'.hourlyRate == (if p.hourlyRate.Some? then p.hourlyRate else e.hourlyRate)
    ensures e'.notes == (if p.notes.Some? then p.notes else e.notes)
  {
    e.(hours := p.hours.GetOr(e.hours),
       isBillable := p.isBillable.GetOr(e.isBillable),
       hourlyRate := if p.hourlyRate.Some? then p.hourlyRate else e.hourlyRate,
       notes := if p.notes.Some? then p.notes else e.notes)
  }

  /** The position of the entry with the given id, if there is one. */
  function FindEntry(es: seq<TimeEntry>, id: nat): (r: Option<nat>)
    ensures r.None? <==> forall k :: 0 <= k < |es| ==> es[k].id != id
    ensures r.Some? ==> r.value < |es| && es[r.value].id == id
  {
    if |es| == 0 then None
    else match FindEntry(es[..|es| - 1], id)
      case Some(k) => Some(k)
      case None => if es[|es| - 1].id == id then Some(|es| - 1) else None
  }

  /**
   * The guards shared by update and delete, in the order the handlers apply
   * them: the entry must exist, the caller must be allowed to act on it, and
   * it must not be edit-locked. On success, the entry's position.
   */
  function CheckMutable(s: Store, caller: Caller, id: nat): (r: Result<nat, Error>)
    ensures FindEntry(s.entries, id).None? ==> r == Failure(NotFound)
    ensures FindEntry(s.entries, id).Some? ==>
              var k := FindEntry(s.entries, id).value;
              var e := s.entries[k];
              && (!MayActOn(caller, e) ==> r == Failure(Forbidden))
              && (MayActOn(caller, e) && EditLocked(s, e) ==> r == Failure(LockedTimesheet))
              && (MayActOn(caller, e) && !EditLocked(s, e) ==> r == Success(k))
  {
    match FindEntry(s.entries, id)
    case None => Failure(NotFound)
    case Some(k) =>
      if !MayActOn(caller, s.entries[k]) then Failure(Forbidden)
      else if EditLocked(s, s.entries[k]) then Failure(LockedTimesheet)
      else Success(k)
  }

  /**
   * `updateTimeEntry`: after the guards, the entry takes the supplied fields;
   * no other entry and nothing else in the store changes.
   */
  function UpdateTimeEntry(s: Store, caller: Caller, id: nat, p: EntryPatch): (r: Result<(Store, TimeEntry), Error>)
    ensures r.Failure? <==> CheckMutable(s, caller, id).Failure?
    ensures r.Failure? ==> r.error == CheckMutable(s, caller, id).error
    ensures r.Success? ==>
              var k := FindEntry(s.entries, id).value;
              var e := s.entries[k];
              && MayActOn(caller, e) && !EditLocked(s, e)
              && r.value.1 == ApplyPatch(e, p)
              && r.value.0 == s.(entries := s.entries[k := r.value.1])
  {
    match CheckMutable(s, caller, id)
    case Failure(err) => Failure(err)
    case Success(k) =>
      var e' := ApplyPatch(s.entries[k], p);
      Success((s.(entries := s.entries[k := e']), e'))
  }

  /**
   * `deleteTimeEntry`: after the guards, the entry is removed; the other
   * entries keep their order and nothing else in the store changes.
   */
  function DeleteTimeEntry(s: Store, caller: Caller, id: nat): (r: Result<Store, Error>)
    ensures r.Failure? <==> CheckMutable(s, caller, id).Failure?
    ensures r.Failure? ==> r.error == CheckMutable(s, caller, id).error
    ensures r.Success? ==>
              var k := FindEntry(s.entries, id).value;
              && MayActOn(caller, s.entries[k]) && !EditLocked(s, s.entries[k])
              && r.value == s.(entries := s.entries[..k] + s.entries[k + 1..])
              && |r.value.entries| == |s.entries| - 1
  {
    match CheckMutable(s, caller, id)
    case Failure(err) => Failure(err)
    case Success(k) => Success(s.(entries := s.entries[..k] + s.entries[k + 1..]))
  }
}

=== FILE: timesheets.dfy ===
/**
 * The timesheet workflow: lazy weekly get-or-create, submission with its
 * totals snapshot and approval request, approval and rejection by the
 * addressed manager, and the two read-only queries.
 *
 * Each handler is one atomic step from a store to a result; a failure
 * carries no store, so the caller keeps the store it had.
 */
module Timesheets {
  import opened Results
  import opened Domain
  import opened Hours

  /** A week runs from its start day to six days later (Monday to Sunday). */
  const DaysAfterWeekStart: int := 6

  /** The position of the timesheet of `userId` for the week starting `weekStart`, if any. */
  function FindSheet(ts: seq<Timesheet>, userId: Id, weekStart: Day): (r: Option<nat>)
    ensures r.None? <==> forall i :: 0 <= i < |ts| ==> !(ts[i].userId == userId && ts[i].weekStart == weekStart)
    ensures r.Some? ==> r.value < |ts| && ts[r.value].userId == userId && ts[r.value].weekStart == weekStart
  {
    if |ts| == 0 then None
    else match FindSheet(ts[..|ts| - 1], userId, weekStart)
      case Some(i) => Some(i)
      case None =>
        if ts[|ts| - 1].userId == userId && ts[|ts| - 1].weekStart == weekStart then Some(|ts| - 1) else None
  }

  /**
   * `createOrGetTimesheet`: the caller's timesheet for the week, created on
   * first request in DRAFT with zero totals and no submission time. Returns
   * the store and the timesheet's id.
   */
  function CreateOrGetTimesheet(s: Store, caller: Caller, weekStart: Day): (r: (Store, nat))
    ensures r.1 < |r.0.timesheets|
    ensures r.0.timesheets[r.1].userId == caller.userId && r.0.timesheets[r.1].weekStart == weekStart
    ensures FindSheet(s.timesheets, caller.userId, weekStart).Some? ==>
              r == (s, FindSheet(s.timesheets, caller.userId, weekStart).value)
    ensures FindSheet(s.timesheets, caller.userId, weekStart).None? ==>
              && r.1 == |s.timesheets|
              && r.0 == s.(timesheets := s.timesheets + [r.0.timesheets[r.1]])
              && r.0.timesheets[r.1].weekEnd == weekStart + DaysAfterWeekStart
              && r.0.timesheets[r.1].status == Draft
              && r.0.timesheets[r.1].totalHours == 0.0
              && r.0.timesheets[r.1].billableHours == 0.0
              && r.0.timesheets[r.1].nonBillableHours == 0.0
              && r.0.timesheets[r.1].submittedAt.None?
  {
    match FindSheet(s.timesheets, caller.userId, weekStart)
    case Some(i) => (s, i)
    case None =>
      var sheet := Timesheet(caller.userId, weekStart, weekStart + DaysAfterWeekStart, Draft, 0.0, 0.0, 0.0, None);
      (s.(timesheets := s.timesheets + [sheet]), |s.timesheets|)
  }

  /** Asking twice for the same week returns the same timesheet and creates nothing the second time. */
  lemma {:induction false} CreateOrGetIdempotent(s: Store, caller: Caller, weekStart: Day)
    ensures var (s1, id1) := CreateOrGetTimesheet(s, caller, weekStart);
            CreateOrGetTimesheet(s1, caller, weekStart) == (s1, id1)
  {
    var (s1, id1) := CreateOrGetTimesheet(s, caller, weekStart);
    if FindSheet(s.timesheets, caller.userId, weekStart).None? {
      assert FindSheet(s1.timesheets, caller.userId, weekStart) == Some(id1);
    } else {
      var i := FindSheet(s.timesheets, caller.userId, weekStart).value;
      var f := FindSheet(s1.timesheets, caller.userId, weekStart);
      assert s1 == s;
      assert f == Some(i);
    }
  }

  /** The ownership rule of submit: the owner, or any role other than EMPLOYEE. */
  predicate MaySubmit(caller: Caller, sheet: Timesheet) {
    sheet.userId == caller.userId || caller.role != Employee
  }

  /** The approval request a submission addresses to the owner's manager. */
  function ApprovalRequest(id: nat, manager: Id, owner: Id): Approval {
    Approval(id, manager, owner, ApprovalStatus.Pending, None, None, None)
  }

  /**
   * `submitTimesheet`: checks existence, ownership and DRAFT status in that
   * order; then snapshots the hours of the attached entries onto the
   * timesheet, marks it SUBMITTED at `now`, and, if the owner has a manager,
   * appends one PENDING approval addressed to that manager.
   */
  function SubmitTimesheet(s: Store, caller: Caller, id: nat, now: Timestamp): (r: Result<(Store, Timesheet), Error>)
    ensures id >= |s.timesheets| ==> r == Failure(NotFound)
    ensures id < |s.timesheets| && !MaySubmit(caller, s.timesheets[id]) ==> r == Failure(Forbidden)
    ensures id < |s.timesheets| && MaySubmit(caller, s.timesheets[id]) && s.timesheets[id].status != Draft ==>
              r == Failure(InvalidTransition)
    ensures r.Success? <==>
              id < |s.timesheets| && MaySubmit(caller, s.timesheets[id]) && s.timesheets[id].status == Draft
    ensures r.Success? ==>
              var (s', sheet') := r.value;
              var sheet := s.timesheets[id];
              var attached := Attached(s.entries, id);
              && s'.timesheets == s.timesheets[id := sheet']
              && sheet'.status == Submitted
              && sheet'.totalHours == TotalHours(attached)
              && sheet'.billableHours == BillableHours(attached)
              && sheet'.totalHours == sheet'.billableHours + sheet'.nonBillableHours
              && sheet'.submittedAt == Some(now)
              && sheet'.userId == sheet.userId && sheet'.weekStart == sheet.weekStart && sheet'.weekEnd == sheet.weekEnd
              && s'.entries == s.entries && s'.users == s.users
              && s'.tasks == s.tasks && s'.projects == s.projects && s'.nextEntryId == s.nextEntryId
              && (ManagerOf(s.users, sheet.userId).Some? ==>
                    s'.approvals == s.approvals + [ApprovalRequest(id, ManagerOf(s.users, sheet.userId).value, sheet.userId)])
              && (ManagerOf(s.users, sheet.userId).None? ==> s'.approvals == s.approvals)
  {
    if id >= |s.timesheets| then Failure(NotFound)
    else
      var sheet := s.timesheets[id];
      if !MaySubmit(caller, sheet) then Failure(Forbidden)
      else if sheet.status != Draft then Failure(InvalidTransition)
      else
        var attached := Attached(s.entries, id);
        var total := TotalHours(attached);
        var billable := BillableHours(attached);
        var sheet' := sheet.(status := Submitted, totalHours := total, billableHours := billable,
                             nonBillableHours := total - billable, submittedAt := Some(now));
        var approvals' := match ManagerOf(s.users, sheet.userId)
          case Some(m) => s.approvals + [ApprovalRequest(id, m, sheet.userId)]
          case None => s.approvals;
        Success((s.(timesheets := s.timesheets[id := sheet'], approvals := approvals'), sheet'))
  }

  /** Whether approval `a` is a PENDING request on timesheet `id` addressed to `approverId`. */
  predicate PendingFor(a: Approval, id: nat, approverId: Id) {
    a.timesheetId == id && a.approverId == approverId && a.status == ApprovalStatus.Pending
  }

  /** The first PENDING approval on timesheet `id` addressed to `approverId`, if any. */
  function FindPending(approvals: seq<Approval>, id: nat, approverId: Id): (r: Option<nat>)
    ensures r.None? <==> forall k :: 0 <= k < |approvals| ==> !PendingFor(approvals[k], id, approverId)
    ensures r.Some? ==> r.value < |approvals| && PendingFor(approvals[r.value], id, approverId)
  {
    if |approvals| == 0 then None
    else match FindPending(approvals[..|approvals| - 1], id, approverId)
      case Some(k) => Some(k)
      case None =>
        if PendingFor(approvals[|approvals| - 1], id, approverId) then Some(|approvals| - 1) else None
  }

  /**
   * `approveTimesheet`, behind the MANAGER/SUPER_ADMIN route gate: the
   * caller's PENDING approval on the timesheet becomes APPROVED at `now`, and
   * the timesheet becomes APPROVED. Nothing else changes. A timesheet row that
   * has disappeared makes the final write fail.
   */
  function ApproveTimesheet(s: Store, caller: Caller, id: nat, now: Timestamp): (r: Result<(Store, Approval), Error>)
    requires IsManagerRole(caller.role)
    ensures FindPending(s.approvals, id, caller.userId).None? ==> r == Failure(NotFound)
    ensures FindPending(s.approvals, id, caller.userId).Some? && id >= |s.timesheets| ==> r == Failure(Internal)
    ensures r.Success? <==> FindPending(s.approvals, id, caller.userId).Some? && id < |s.timesheets|
    ensures r.Success? ==>
              var k := FindPending(s.approvals, id, caller.userId).value;
              var (s', a') := r.value;
              && a' == s.approvals[k].(status := ApprovalStatus.Approved, approvedAt := Some(now))
              && s'.approvals == s.approvals[k := a']
              && s'.timesheets == s.timesheets[id := s.timesheets[id].(status := SheetStatus.Approved)]
              && s' == s.(approvals := s'.approvals, timesheets := s'.timesheets)
  {
    match FindPending(s.approvals, id, caller.userId)
    case None => Failure(NotFound)
    case Some(k) =>
      if id >= |s.timesheets| then Failure(Internal)
      else
        var a' := s.approvals[k].(status := ApprovalStatus.Approved, approvedAt := Some(now));
        var sheet' := s.timesheets[id].(status := SheetStatus.Approved);
        Success((s.(approvals := s.approvals[k := a'], timesheets := s.timesheets[id := sheet']), a'))
  }

  /**
   * `rejectTimesheet`, behind the same gate: a missing or empty reason is
   * refused before any lookup; otherwise the caller's PENDING approval
   * becomes REJECTED with exactly that reason at `now`, and the timesheet
   * becomes REJECTED. Returns the reason.
   */
  function RejectTimesheet(s: Store, caller: Caller, id: nat, reason: Option<string>, now: Timestamp)
    : (r: Result<(Store, string), Error>)
    requires IsManagerRole(caller.role)
    ensures !Present(reason) ==> r == Failure(ValidationError)
    ensures Present(reason) && FindPending(s.approvals, id, caller.userId).None? ==> r == Failure(NotFound)
    ensures Present(reason) && FindPending(s.approvals, id, caller.userId).Some? && id >= |s.timesheets| ==>
              r == Failure(Internal)
    ensures r.Success? <==>
              Present(reason) && FindPending(s.approvals, id, caller.userId).Some? && id < |s.timesheets|
    ensures r.Success? ==>
              var k := FindPending(s.approvals, id, caller.userId).value;
              var s' := r.value.0;
              && r.value.1 == reason.value
              && s'.approvals == s.approvals[k := s.approvals[k].(status := ApprovalStatus.Rejected,
                                                                   rejectionReason := reason,
                                                                   rejectedAt := Some(now))]
              && s'.timesheets == s.timesheets[id := s.timesheets[id].(status := SheetStatus.Rejected)]
              && s' == s.(approvals := s'.approvals, timesheets := s'.timesheets)
  {
    if !Present(reason) then Failure(ValidationError)
    else match FindPending(s.approvals, id, caller.userId)
      case None => Failure(NotFound)
      case Some(k) =>
        if id >= |s.timesheets| then Failure(Internal)
        else
          var a' := s.approvals[k].(status := ApprovalStatus.Rejected, rejectionReason := reason, rejectedAt := Some(now));
          var sheet' := s.timesheets[id].(status := SheetStatus.Rejected);
          Success((s.(approvals := s.approvals[k := a'], timesheets := s.timesheets[id := sheet']), reason.value))
  }

  /** The PENDING approvals addressed to `approverId`, newest first. */
  function PendingOf(approvals: seq<Approval>, approverId: Id): (r: seq<Approval>)
    ensures |r| <= |approvals|
    ensures forall a :: a in r <==> a in approvals && a.approverId == approverId && a.status == ApprovalStatus.Pending
  {
    if |approvals| == 0 then []
    else
      var last := approvals[|approvals| - 1];
      var older := PendingOf(approvals[..|approvals| - 1], approverId);
      assert approvals == approvals[..|approvals| - 1] + [last];
      if last.approverId == approverId && last.status == ApprovalStatus.Pending then [last] + older else older
  }

  /** `getPendingApprovals`, behind the MANAGER/SUPER_ADMIN route gate; read-only. */
  function GetPendingApprovals(s: Store, caller: Caller): (r: seq<Approval>)
    requires IsManagerRole(caller.role)
    ensures forall a :: a in r <==>
              a in s.approvals && a.approverId == caller.userId && a.status == ApprovalStatus.Pending
  {
    PendingOf(s.approvals, caller.userId)
  }

  /** The read rule of a single timesheet: its owner, or a MANAGER or SUPER_ADMIN. */
  predicate MayRead(caller: Caller, sheet: Timesheet) {
    sheet.userId == caller.userId || IsManagerRole(caller.role)
  }

  /** `getTimesheetById`: the timesheet, if it exists and the caller may read it. */
  function GetTimesheetById(s: Store, caller: Caller, id: nat): (r: Result<Timesheet, Error>)
    ensures id >= |s.timesheets| ==> r == Failure(NotFound)
    ensures id < |s.timesheets| ==>
              (r.Success? <==> s.timesheets[id].userId == caller.userId
                               || caller.role == Manager || caller.role == SuperAdmin)
    ensures id < |s.timesheets| && r.Failure? ==> r.error == Forbidden
    ensures r.Success? ==> r.value == s.timesheets[id]
  {
    if id >= |s.timesheets| then Failure(NotFound)
    else if !MayRead(caller, s.timesheets[id]) then Failure(Forbidden)
    else Success(s.timesheets[id])
  }
}

=== FILE: week_attachment.dfy ===
/**
 * How time entries come to belong to a timesheet.
 *
 * As written, no handler ever sets an entry's `timesheetId`: `createTimeEntry`
 * leaves it empty and `createOrGetTimesheet` attaches nothing. Submission
 * sums only attached entries, so a week of logged work is submitted as zero
 * hours, and the edit lock never engages for entries created through the
 * handlers. `SubmitIgnoresLoggedWork` exhibits this on a concrete store.
 *
 * The evident intent is that fetching or creating a DRAFT timesheet for a
 * week attaches the owner's loose entries of that week. `CreateOrGetAttaching`
 * does that, keeps the store invariants, and makes submission count the
 * week's work (`AttachingCountsLooseEntries`, `TwoDayWeekScenario`).
 */
module WeekAttachment {
  import opened Results
  import opened Domain
  import opened Hours
  import opened TimeEntries
  import opened Timesheets
  import opened Invariants
  import Summary

  /** An entry of `u` dated within `[lo, hi]` that belongs to no timesheet yet. */
  function Loose(u: Id, lo: Day, hi: Day): TimeEntry -> bool {
    (e: TimeEntry) => e.userId == u && lo <= e.date <= hi && e.timesheetId.None?
  }

  /** One entry after attaching: pointed at `id` if it is loose, otherwise as it was. */
  function AttachOne(e: TimeEntry, u: Id, lo: Day, hi: Day, id: nat): TimeEntry {
    if Loose(u, lo, hi)(e) then e.(timesheetId := Some(id)) else e
  }

  /** Points every loose entry of `u` in `[lo, hi]` at timesheet `id`; other entries are kept. */
  function AttachWeek(es: seq<TimeEntry>, u: Id, lo: Day, hi: Day, id: nat): (r: seq<TimeEntry>)
    ensures |r| == |es|
    ensures forall k :: 0 <= k < |es| ==> r[k] == AttachOne(es[k], u, lo, hi, id)
  {
    if |es| == 0 then []
    else AttachWeek(es[..|es| - 1], u, lo, hi, id) + [AttachOne(es[|es| - 1], u, lo, hi, id)]
  }

  /**
   * Get-or-create as evidently intended: as `createOrGetTimesheet`, and when
   * the resulting timesheet is DRAFT, the caller's loose entries of its week
   * are attached to it.
   */
  function CreateOrGetAttaching(s: Store, caller: Caller, weekStart: Day): (r: (Store, nat))
    ensures var (s1, id) := CreateOrGetTimesheet(s, caller, weekStart);
            && r.1 == id
            && r.0.timesheets == s1.timesheets && r.0.approvals == s1.approvals
            && |r.0.entries| == |s.entries|
            && (s1.timesheets[id].status == Draft ==>
                  r.0.entries == AttachWeek(s.entries, caller.userId, weekStart, weekStart + DaysAfterWeekStart, id))
            && (s1.timesheets[id].status != Draft ==> r.0 == s1)
  {
    var (s1, id) := CreateOrGetTimesheet(s, caller, weekStart);
    if s1.timesheets[id].status == Draft then
      (s1.(entries := AttachWeek(s1.entries, caller.userId, weekStart, weekStart + DaysAfterWeekStart, id)), id)
    else (s1, id)
  }

  /** One entry more on both sides keeps the attached hours equal to the earlier ones plus the loose ones. */
  lemma {:induction false} AttachStepTotal(before: seq<TimeEntry>, init: seq<TimeEntry>, e: TimeEntry, u: Id, lo: Day, hi: Day, id: nat)
    requires TotalHours(Attached(before, id)) == TotalHours(Attached(init, id)) + TotalHours(Select(init, Loose(u, lo, hi)))
    ensures TotalHours(Attached(before + [AttachOne(e, u, lo, hi, id)], id))
            == TotalHours(Attached(init + [e], id)) + TotalHours(Select(init + [e], Loose(u, lo, hi)))
  {
    var e' := AttachOne(e, u, lo, hi, id);
    SelectSnoc(before, e', AttachedTo(id));
    SelectSnoc(init, e, AttachedTo(id));
    SelectSnoc(init, e, Loose(u, lo, hi));
    if Loose(u, lo, hi)(e) {
      TotalSnoc(Attached(before, id), e');
      TotalSnoc(Select(init, Loose(u, lo, hi)), e);
    } else if AttachedTo(id)(e) {
      TotalSnoc(Attached(before, id), e);
      TotalSnoc(Attached(init, id), e);
    }
  }

  /** The same step for billable hours. */
  lemma {:induction false} AttachStepBillable(before: seq<TimeEntry>, init: seq<TimeEntry>, e: TimeEntry, u: Id, lo: Day, hi: Day, id: nat)
    requires BillableHours(Attached(before, id)) == BillableHours(Attached(init, id)) + BillableHours(Select(init, Loose(u, lo, hi)))
    ensures BillableHours(Attached(before + [AttachOne(e, u, lo, hi, id)], id))
            == BillableHours(Attached(init + [e], id)) + BillableHours(Select(init + [e], Loose(u, lo, hi)))
  {
    var e' := AttachOne(e, u, lo, hi, id);
    SelectSnoc(before, e', AttachedTo(id));
    SelectSnoc(init, e, AttachedTo(id));
    SelectSnoc(init, e, Loose(u, lo, hi));
    if Loose(u, lo, hi)(e) {
      BillableSnoc(Attached(before, id), e');
      BillableSnoc(Select(init, Loose(u, lo, hi)), e);
    } else if AttachedTo(id)(e) {
      BillableSnoc(Attached(before, id), e);
      BillableSnoc(Attached(init, id), e);
    }
  }

  /** After attaching, timesheet `id` holds the hours it held before plus those of the loose entries. */
  lemma {:induction false} AttachAddsLooseTotal(es: seq<TimeEntry>, u: Id, lo: Day, hi: Day, id: nat)
    ensures TotalHours(Attached(AttachWeek(es, u, lo, hi, id), id))
            == TotalHours(Attached(es, id)) + TotalHours(Select(es, Loose(u, lo, hi)))
    decreases |es|
  {
    if |es| > 0 {
      var init := es[..|es| - 1];
      var e := es[|es| - 1];
      var before := AttachWeek(init, u, lo, hi, id);
      assert es == init + [e];
      calc {
        TotalHours(Attached(AttachWeek(es, u, lo, hi, id), id));
        { assert AttachWeek(es, u, lo, hi, id) == before + [AttachOne(e, u, lo, hi, id)]; }
        TotalHours(Attached(before + [AttachOne(e, u, lo, hi, id)], id));
        { AttachAddsLooseTotal(init, u, lo, hi, id);
          AttachStepTotal(before, init, e, u, lo, hi, id); }
        TotalHours(Attached(init + [e], id)) + TotalHours(Select(init + [e], Loose(u, lo, hi)));
      }
    }
  }

  /** After attaching, timesheet `id` holds the billable hours it held before plus those of the loose entries. */
  lemma {:induction false} AttachAddsLooseBillable(es: seq<TimeEntry>, u: Id, lo: Day, hi: Day, id: nat)
    ensures BillableHours(Attached(AttachWeek(es, u, lo, hi, id), id))
            == BillableHours(Attached(es, id)) + BillableHours(Select(es, Loose(u, lo, hi)))
    decreases |es|
  {
    if |es| > 0 {
      var init := es[..|es| - 1];
      var e := es[|es| - 1];
      var before := AttachWeek(init, u, lo, hi, id);
      assert es == init + [e];
      calc {
        BillableHours(Attached(AttachWeek(es, u, lo, hi, id), id));
        { assert AttachWeek(es, u, lo, hi, id) == before + [AttachOne(e, u, lo, hi, id)]; }
        BillableHours(Attached(before + [AttachOne(e, u, lo, hi, id)], id));
        { AttachAddsLooseBillable(init, u, lo, hi, id);
          AttachStepBillable(before, init, e, u, lo, hi, id); }
        BillableHours(Attached(init + [e], id)) + BillableHours(Select(init + [e], Loose(u, lo, hi)));
      }
    }
  }

  /** Attaching to `id` leaves every other timesheet's entries alone. */
  lemma {:induction false} AttachKeepsOthers(es: seq<TimeEntry>, u: Id, lo: Day, hi: Day, id: nat, i: nat)
    requires i != id
    ensures Attached(AttachWeek(es, u, lo, hi, id), i) == Attached(es, i)
    decreases |es|
  {
    if |es| > 0 {
      var init := es[..|es| - 1];
      var r := AttachWeek(es, u, lo, hi, id);
      AttachKeepsOthers(init, u, lo, hi, id, i);
      assert r[..|r| - 1] == AttachWeek(init, u, lo, hi, id);
    }
  }

  /**
   * The intended property: after attaching, submitting the week's DRAFT
   * timesheet snapshots the hours it already held plus every loose entry the
   * owner logged in that week, and likewise for billable hours.
   */
  lemma {:induction false} AttachingCountsLooseEntries(s: Store, caller: Caller, weekStart: Day, now: Timestamp)
    requires var (s1, id) := CreateOrGetTimesheet(s, caller, weekStart); s1.timesheets[id].status == Draft
    ensures var (s2, id) := CreateOrGetAttaching(s, caller, weekStart);
            var loose := Select(s.entries, Loose(caller.userId, weekStart, weekStart + DaysAfterWeekStart));
            var r := SubmitTimesheet(s2, caller, id, now);
            && r.Success?
            && r.value.1.totalHours == TotalHours(Attached(s.entries, id)) + TotalHours(loose)
            && r.value.1.billableHours == BillableHours(Attached(s.entries, id)) + BillableHours(loose)
  {
    var (s2, id) := CreateOrGetAttaching(s, caller, weekStart);
    AttachAddsLooseTotal(s.entries, caller.userId, weekStart, weekStart + DaysAfterWeekStart, id);
    AttachAddsLooseBillable(s.entries, caller.userId, weekStart, weekStart + DaysAfterWeekStart, id);
  }

  /**
   * Attaching changes no entry id, so ids stay fresh and distinct, and it
   * points entries only at an existing timesheet.
   */
  lemma {:induction false} AttachKeepsIds(s: Store, u: Id, lo: Day, hi: Day, id: nat)
    requires EntryIdsFresh(s) && EntrySheetsExist(s) && id < |s.timesheets|
    ensures EntryIdsFresh(s.(entries := AttachWeek(s.entries, u, lo, hi, id)))
    ensures EntrySheetsExist(s.(entries := AttachWeek(s.entries, u, lo, hi, id)))
  {
    var es' := AttachWeek(s.entries, u, lo, hi, id);
    assert forall k :: 0 <= k < |es'| ==> es'[k].id == s.entries[k].id;
  }

  /** Attaching to a DRAFT timesheet leaves every submitted total correct. */
  lemma {:induction false} AttachKeepsSnapshots(s: Store, u: Id, lo: Day, hi: Day, id: nat)
    requires SnapshotsCurrent(s)
    requires id < |s.timesheets| && s.timesheets[id].status == Draft
    ensures SnapshotsCurrent(s.(entries := AttachWeek(s.entries, u, lo, hi, id)))
  {
    var s' := s.(entries := AttachWeek(s.entries, u, lo, hi, id));
    forall i | 0 <= i < |s'.timesheets| && s'.timesheets[i].status != Draft
      ensures SnapshotOk(s'.timesheets[i], s'.entries, i)
    {
      AttachKeepsOthers(s.entries, u, lo, hi, id, i);
    }
  }

  lemma {:induction false} AttachingPreserves(s: Store, caller: Caller, weekStart: Day)
    requires Valid(s) && SnapshotsCurrent(s)
    ensures var s' := CreateOrGetAttaching(s, caller, weekStart).0;
            Valid(s') && SnapshotsCurrent(s') && Advances(s, s')
  {
    CreateOrGetPreserves(s, caller, weekStart);
    var (s1, id) := CreateOrGetTimesheet(s, caller, weekStart);
    if s1.timesheets[id].status == Draft {
      AttachKeepsIds(s1, caller.userId, weekStart, weekStart + DaysAfterWeekStart, id);
      AttachKeepsSnapshots(s1, caller.userId, weekStart, weekStart + DaysAfterWeekStart, id);
      assert CreateOrGetAttaching(s, caller, weekStart).0 == s1.(entries := AttachWeek(s1.entries, caller.userId, weekStart, weekStart + DaysAfterWeekStart, id));
    }
  }

  /**
   * A store with a billable task `t` and a non-billable task `n` on project
   * `p`, an employee `u` managed by `m`, and nothing logged yet.
   */
  const ExampleStore: Store :=
    Store(map["u" := User(Employee, Some("m")), "m" := User(Manager, None)],
          map["p" := Project("Website", "Acme")],
          map["t" := Task("p", true, None), "n" := Task("p", false, None)],
          [], 0, [], [])

  const Worker: Caller := Caller("u", Employee)

  /** The two requests of the example week: 8 hours on task `t` on day 100, 8 on task `n` on day 101. */
  const FirstDay: NewEntry := NewEntry("p", "t", 100, 8.0, None, None, None)
  const SecondDay: NewEntry := NewEntry("p", "n", 101, 8.0, None, None, None)

  /** The entries those requests create, billable as their tasks. */
  const FirstEntry: TimeEntry := TimeEntry(0, "u", "p", "t", 100, 8.0, true, None, None, None)
  const SecondEntry: TimeEntry := TimeEntry(1, "u", "p", "n", 101, 8.0, false, None, None, None)

  /** The timesheet a first request for the week of day 100 creates. */
  const WeekSheet: Timesheet := Timesheet("u", 100, 106, Draft, 0.0, 0.0, 0.0, None)

  /** Logging the two days into a store with the example tasks and no entries yet. */
  lemma {:induction false} LogTwoDays(s: Store)
    requires s.tasks == ExampleStore.tasks && s.entries == [] && s.nextEntryId == 0
    ensures var r1 := CreateTimeEntry(s, Worker, FirstDay);
            && r1 == Success((s.(entries := [FirstEntry], nextEntryId := 1), FirstEntry))
            && CreateTimeEntry(r1.value.0, Worker, SecondDay)
               == Success((s.(entries := [FirstEntry, SecondEntry], nextEntryId := 2), SecondEntry))
  {
    assert s.tasks["t"] == Task("p", true, None) && s.tasks["n"] == Task("p", false, None);
    var r1 := CreateTimeEntry(s, Worker, FirstDay);
    assert r1.Success?;
    assert r1.value.1 == FirstEntry;
    assert [] + [FirstEntry] == [FirstEntry];
    var s1 := s.(entries := [FirstEntry], nextEntryId := 1);
    assert r1.value.0 == s1;
    var r2 := CreateTimeEntry(s1, Worker, SecondDay);
    assert r2.Success?;
    assert r2.value.1 == SecondEntry;
    assert [FirstEntry] + [SecondEntry] == [FirstEntry, SecondEntry];
  }

  /** The first request for the week of day 100 in a store without timesheets creates `WeekSheet` as timesheet 0. */
  lemma {:induction false} FirstWeekRequest(s: Store)
    requires s.timesheets == []
    ensures CreateOrGetTimesheet(s, Worker, 100) == (s.(timesheets := [WeekSheet]), 0)
  {
    assert FindSheet(s.timesheets, "u", 100).None?;
    assert s.timesheets + [WeekSheet] == [WeekSheet];
  }

  /** `u` logs the first day, takes the week of day 100, and submits it. */
  function LogTakeSubmit(s: Store, getOrCreate: (Store, Caller, Day) -> (Store, nat)): Result<(Store, Timesheet), Error> {
    match CreateTimeEntry(s, Worker, FirstDay)
    case Failure(e) => Failure(e)
    case Success((s1, _)) =>
      var (s2, id) := getOrCreate(s1, Worker, 100);
      SubmitTimesheet(s2, Worker, id, 1)
  }

  /**
   * The code as written: 8 hours are logged on the first day of the week,
   * the week's timesheet is created and submitted, and it reports 0 hours.
   */
  lemma SubmitIgnoresLoggedWork()
    ensures var r := LogTakeSubmit(ExampleStore, CreateOrGetTimesheet);
            r.Success? && r.value.1.status == Submitted && r.value.1.totalHours == 0.0
  {
    LogTwoDays(ExampleStore);
    var s1 := ExampleStore.(entries := [FirstEntry], nextEntryId := 1);
    var s2 := s1.(timesheets := [WeekSheet]);
    FirstWeekRequest(s1);
    assert LogTakeSubmit(ExampleStore, CreateOrGetTimesheet) == SubmitTimesheet(s2, Worker, 0, 1);
    SelectSnoc([], FirstEntry, AttachedTo(0));
  }

  /** The same steps with the intended get-or-create report the 8 hours. */
  lemma SubmitCountsLoggedWork()
    ensures var r := LogTakeSubmit(ExampleStore, CreateOrGetAttaching);
            r.Success? && r.value.1.status == Submitted && r.value.1.totalHours == 8.0
  {
    LogTwoDays(ExampleStore);
    var s1 := ExampleStore.(entries := [FirstEntry], nextEntryId := 1);
    var e' := FirstEntry.(timesheetId := Some(0));
    var s2 := s1.(entries := [e'], timesheets := [WeekSheet]);
    FirstWeekRequest(s1);
    assert AttachWeek(s1.entries, "u", 100, 106, 0) == [e'];
    assert LogTakeSubmit(ExampleStore, CreateOrGetAttaching) == SubmitTimesheet(s2, Worker, 0, 1);
    SubmitAttachedDay(s2);
  }

  /** Submitting a week whose one attached entry is the first day's snapshots its 8 hours. */
  lemma {:induction false} SubmitAttachedDay(s: Store)
    requires s.entries == [FirstEntry.(timesheetId := Some(0))] && s.timesheets == [WeekSheet]
    ensures var r := SubmitTimesheet(s, Worker, 0, 1);
            r.Success? && r.value.1.status == Submitted && r.value.1.totalHours == 8.0
  {
    var e' := FirstEntry.(timesheetId := Some(0));
    SelectSnoc([], e', AttachedTo(0));
    TotalSnoc([], e');
  }

  /**
   * `u` logs 8 billable hours on day 100 and 8 non-billable hours on day 101,
   * takes the timesheet of the week starting on day 100, and submits it.
   */
  function TwoDayWeek(s: Store, getOrCreate: (Store, Caller, Day) -> (Store, nat)): Result<(Store, Timesheet), Error> {
    match CreateTimeEntry(s, Worker, FirstDay)
    case Failure(e) => Failure(e)
    case Success((s1, _)) =>
      match CreateTimeEntry(s1, Worker, SecondDay)
      case Failure(e) => Failure(e)
      case Success((s2, _)) =>
        var (s3, id) := getOrCreate(s2, Worker, 100);
        SubmitTimesheet(s3, Worker, id, 1)
  }

  /** The example week's entries once attached to timesheet 0. */
  function AttachedWeek(): seq<TimeEntry> {
    [FirstEntry.(timesheetId := Some(0)), SecondEntry.(timesheetId := Some(0))]
  }

  /** The attached week holds 16 hours, 8 of them billable. */
  lemma AttachedWeekHours()
    ensures TotalHours(Attached(AttachedWeek(), 0)) == 16.0
    ensures BillableHours(Attached(AttachedWeek(), 0)) == 8.0
  {
    var a, b := AttachedWeek()[0], AttachedWeek()[1];
    assert AttachedWeek() == [a] + [b];
    SelectSnoc([], a, AttachedTo(0));
    SelectSnoc([a], b, AttachedTo(0));
    assert Attached(AttachedWeek(), 0) == [a] + [b];
    TotalSnoc([], a);
    TotalSnoc([a], b);
    BillableSnoc([], a);
    BillableSnoc([a], b);
  }

  /**
   * With the intended get-or-create, the two logged days are attached to a
   * new DRAFT timesheet 0 and the week reaches submission with that store.
   */
  lemma {:induction false} TwoDayWeekAttached(s: Store)
    requires s.tasks == ExampleStore.tasks && s.entries == [] && s.nextEntryId == 0 && s.timesheets == []
    ensures TwoDayWeek(s, CreateOrGetAttaching)
            == SubmitTimesheet(s.(entries := AttachedWeek(), nextEntryId := 2, timesheets := [WeekSheet]), Worker, 0, 1)
  {
    LogTwoDays(s);
    var s2 := s.(entries := [FirstEntry, SecondEntry], nextEntryId := 2);
    var s3 := s.(entries := AttachedWeek(), nextEntryId := 2, timesheets := [WeekSheet]);
    FirstWeekRequest(s2);
    assert AttachWeek(s2.entries, "u", 100, 106, 0) == AttachedWeek();
    assert CreateOrGetAttaching(s2, Worker, 100) == (s3, 0);
  }

  /** Submitting the attached example week snapshots 16 hours, 8 of them billable. */
  lemma {:induction false} SubmitAttachedWeek(s: Store)
    requires s.entries == AttachedWeek() && s.timesheets == [WeekSheet]
    ensures var r := SubmitTimesheet(s, Worker, 0, 1);
            && r.Success?
            && var (s', sheet) := r.value;
            && sheet.status == Submitted && sheet.submittedAt == Some(1)
            && sheet.totalHours == 16.0 && sheet.billableHours == 8.0 && sheet.nonBillableHours == 8.0
            && |s'.timesheets| == 1
            && (ManagerOf(s.users, "u").Some? ==> s'.approvals == s.approvals + [ApprovalRequest(0, ManagerOf(s.users, "u").value, "u")])
            && (ManagerOf(s.users, "u").None? ==> s'.approvals == s.approvals)
  {
    AttachedWeekHours();
  }

  /** In the example store, `u` is managed by `m`. */
  lemma ExampleManager()
    ensures ManagerOf(ExampleStore.users, "u") == Some("m")
  {
    assert "u" in ExampleStore.users && ExampleStore.users["u"].managerId == Some("m");
  }

  /** The intended week's submission: 16 hours, 8 billable, and one PENDING approval for `m`. */
  lemma TwoDayWeekSubmitted()
    ensures var r := TwoDayWeek(ExampleStore, CreateOrGetAttaching);
            && r.Success?
            && var (s', sheet) := r.value;
            && sheet.status == Submitted && sheet.submittedAt == Some(1)
            && sheet.totalHours == 16.0 && sheet.billableHours == 8.0 && sheet.nonBillableHours == 8.0
            && s'.approvals == [ApprovalRequest(0, "m", "u")]
            && |s'.timesheets| == 1
  {
    var s3 := ExampleStore.(entries := AttachedWeek(), nextEntryId := 2, timesheets := [WeekSheet]);
    TwoDayWeekAttached(ExampleStore);
    SubmitAttachedWeek(s3);
    ExampleManager();
  }

  /** The manager approves the one pending request: both records read APPROVED at the approval time. */
  lemma {:induction false} PendingWeekApproved(s: Store)
    requires s.approvals == [ApprovalRequest(0, "m", "u")] && |s.timesheets| == 1
    ensures var a := ApproveTimesheet(s, Caller("m", Manager), 0, 2);
            && a.Success?
            && a.value.0.timesheets[0].status == SheetStatus.Approved
            && a.value.0.approvals[0].status == ApprovalStatus.Approved
            && a.value.0.approvals[0].approvedAt == Some(2)
  {
    assert FindPending(s.approvals, 0, "m") == Some(0);
  }

  /**
   * The intended week: submission reports 16 hours, 8 billable and 8
   * non-billable (a 50% billable share), and leaves one PENDING approval
   * addressed to `m`; `m` then approves, and both records read APPROVED.
   */
  lemma TwoDayWeekScenario()
    ensures var r := TwoDayWeek(ExampleStore, CreateOrGetAttaching);
            && r.Success?
            && var (s', sheet) := r.value;
            && sheet.status == Submitted && sheet.submittedAt == Some(1)
            && sheet.totalHours == 16.0 && sheet.billableHours == 8.0 && sheet.nonBillableHours == 8.0
            && Summary.Percentage(sheet.billableHours, sheet.totalHours) == 50.0
            && s'.approvals == [ApprovalRequest(0, "m", "u")]
            && var a := ApproveTimesheet(s', Caller("m", Manager), 0, 2);
            && a.Success?
            && a.value.0.timesheets[0].status == SheetStatus.Approved
            && a.value.0.approvals[0].status == ApprovalStatus.Approved
            && a.value.0.approvals[0].approvedAt == Some(2)
  {
    TwoDayWeekSubmitted();
    var r := TwoDayWeek(ExampleStore, CreateOrGetAttaching);
    PendingWeekApproved(r.value.0);
    assert Summary.Percentage(8.0, 16.0) == 50.0;
  }

  /** The same week for an employee with no manager: submitted, and no approval is created. */
  lemma TwoDayWeekWithoutManager()
    ensures var s := ExampleStore.(users := map["u" := User(Employee, None)]);
            var r := TwoDayWeek(s, CreateOrGetAttaching);
            && r.Success?
            && r.value.1.status == Submitted && r.value.1.totalHours == 16.0
            && r.value.0.approvals == []
  {
    var s := ExampleStore.(users := map["u" := User(Employee, None)]);
    TwoDayWeekAttached(s);
    SubmitAttachedWeek(s.(entries := AttachedWeek(), nextEntryId := 2, timesheets := [WeekSheet]));
    assert ManagerOf(s.users, "u") == None;
  }
}
